=== FILE: README.md ===
# NativeEncoderPlugin: a Dafny model of the captions transcoding core

The captions app burns time-synchronised caption overlays into a video on
Android. Its native side, `NativeEncoderPlugin`, opens the source with a
media extractor, decodes video frames, asks the Flutter side for an overlay
per frame timestamp, waits a bounded time for it, draws frame and overlay
into the encoder's input surface, and drains the encoder into an MP4 muxer
that it starts at most once, on the encoder's first format change. This project models the deterministic logic of
that plugin, with the codecs, extractor, muxer and bitmaps as opaque values
and their answers as inputs:

- `Tracks` (tracks.dfy): the track-picking loop of `startEncoding` and the
  encoder frame rate.
- `Nv21` (nv21.dfy): the YUV_420_888 to NV21 repack at the start of
  `yuv420ToBitmap`, as loops over sequences.
- `Drain` (drain.dfy): `drainEncoder`, a state machine over the statuses
  `dequeueOutputBuffer` reports, with the muxer calls and buffer releases
  it makes.
- `Overlay` (overlay.dfy): the `pendingOverlays` map and `lastOverlay`,
  written by `deliverOverlay` and read by the take in `processLoop`.
- `DecodeLoop` (decode_loop.dfy): one iteration of `processLoop` (decoder
  input, decoder output with timestamp, overlay take and frame, encoder
  drain), and the loop until the decoder reports end of stream.
- `Session` (session.dfy): `startEncoding`'s outcome, `finishEncoding`,
  `releaseAll` and `processLoop` followed by its teardown.
- `Wrappers` (wrappers.dfy): `Option`, for Kotlin's nullable values.
- `Sequences` (sequences.dfy): a fact about sequence concatenation that the
  drain and the frame loop proofs share.

Where the code does something other than what a transcoder of this kind is
meant to do, the model follows the code:

- A second "output format changed" event is skipped by the drain loop. A
  stricter design treats it as a fatal protocol violation.
- On a missed overlay the frame gets `lastOverlay`. That is the last overlay
  *delivered*, for any timestamp, including a later one. It is not the last
  overlay a frame actually used.
- When no video track exists, `selectTrack(-1)` throws after the extractor
  was opened and assigned, so the extractor stays open. A clean failure
  would leave no object open.
- No audio track is ever added to the muxer. `keepAudio` is read and
  `audioTrackIdx` is picked, but neither is used afterwards.
- `finishEncoding` drains the encoder once and only then signals end of
  input and stops it. Draining until the encoder's own end of stream, after
  signalling end of input, would write every sample. Here, samples the
  encoder produces after that last drain are lost (see Findings).
- The millisecond timestamp `tMs` of a decoded frame is only the key its
  overlay is requested and taken with. The frame reaches the encoder through
  `lockCanvas`/`unlockCanvasAndPost` (lines 202-206) and no timestamp is
  passed. The encoder stamps each frame with its posting time, so the output
  does not keep the source's timeline. In the model, `Frame.tMs` is that
  overlay key.
- The decoded image is repacked at the session's target size, not at its
  own size (see Findings).

## Model

| member | source | states |
|---|---|---|
| `Tracks.PickStep` | android/app/src/main/kotlin/com/example/captions_app/NativeEncoderPlugin.kt:110-117 | one loop iteration sets the video index to this track only when it is a video track and none was chosen, sets the audio index to it only when it is an audio track and none was chosen, never both, and changes the frame rate only when it picks a video track that carries one |
| `Tracks.PickFrom` | android/app/src/main/kotlin/com/example/captions_app/NativeEncoderPlugin.kt:107-118 | the loop never replaces an index that is already set, and an index it sets names a track of the right kind |
| `Tracks.SelectTracks` | android/app/src/main/kotlin/com/example/captions_app/NativeEncoderPlugin.kt:107-118 | with both indices reset, each resulting index is -1 or names a track of its kind |
| `Tracks.SelectTracksPicksFirst` | android/app/src/main/kotlin/com/example/captions_app/NativeEncoderPlugin.kt:107-118 | with both indices reset, the video index is the smallest index whose MIME starts with `video/` and the audio index the smallest starting with `audio/` (each -1 when none exists, a missing MIME read as ""), a found video index differs from the audio index, and the frame rate is the first video track's KEY_FRAME_RATE raised to at least 1 when present, else the caller's |
| `Tracks.KindsExclusive` | android/app/src/main/kotlin/com/example/captions_app/NativeEncoderPlugin.kt:110-115 | no MIME string is both a video and an audio type, so the `else if` never loses an audio track |
| `Tracks.AtLeastOne` | android/app/src/main/kotlin/com/example/captions_app/NativeEncoderPlugin.kt:113 | the frame rate taken from a track is at least 1, equals the track's rate when that is at least 1, and is exactly 1 for a rate below 1 |
| `Tracks.TrackFrameRateAtLeastOne` | android/app/src/main/kotlin/com/example/captions_app/NativeEncoderPlugin.kt:112-114 | a frame rate that comes from the chosen video track is at least 1 |
| `Tracks.ToInt32` | android/app/src/main/kotlin/com/example/captions_app/NativeEncoderPlugin.kt:136 | `Double.toInt()` rounds toward zero on both signs, gives `Int.MAX_VALUE` at or above it and `Int.MIN_VALUE` at or below it |
| `Tracks.EncoderFrameRate` | android/app/src/main/kotlin/com/example/captions_app/NativeEncoderPlugin.kt:136 | the encoder's KEY_FRAME_RATE is between 1 and the largest Int, is the integer part of the session rate when that is at least 1, is 1 for any rate below 1 and the largest Int for any rate at or above it |
| `Tracks.EncoderKeepsTrackFrameRate` | android/app/src/main/kotlin/com/example/captions_app/NativeEncoderPlugin.kt:136 | an integer track frame rate of at least 1 reaches the encoder unchanged |
| `Tracks.StaleIndicesCollide` | android/app/src/main/kotlin/com/example/captions_app/NativeEncoderPlugin.kt:107-118 | the loop as written, run a second time without resetting the indices, can end with video and audio index equal and the video index naming an audio track |
| `Nv21.SampleInBounds` | android/app/src/main/kotlin/com/example/captions_app/NativeEncoderPlugin.kt:309-316 | for a plane covering the grid, every `row*rowStride + col*pixelStride` read is inside the buffer |
| `Nv21.ChromaFits` | android/app/src/main/kotlin/com/example/captions_app/NativeEncoderPlugin.kt:302-342 | the `(h/2)*(w/2)` V,U pairs after the luma plane fit in the `w*h + (w*h)/2` array, for odd sizes too |
| `Nv21.LumaRow` | android/app/src/main/kotlin/com/example/captions_app/NativeEncoderPlugin.kt:310-316 | one luma row is `w` bytes, byte `col` being the Y sample at `row*yRowStride + col*yPixelStride` |
| `Nv21.CopyLuma` | android/app/src/main/kotlin/com/example/captions_app/NativeEncoderPlugin.kt:304-317 | the luma copy has `w*h` bytes and byte `row*w + col` is the Y sample at `row*yRowStride + col*yPixelStride` |
| `Nv21.ChromaRow` | android/app/src/main/kotlin/com/example/captions_app/NativeEncoderPlugin.kt:330-341 | one chroma row is `2*(w/2)` bytes: for each cell the V sample read with the V plane's strides, then the U sample read with the U plane's strides |
| `Nv21.InterleaveChroma` | android/app/src/main/kotlin/com/example/captions_app/NativeEncoderPlugin.kt:319-342 | the chroma part has two bytes per cell of the `(h/2) x (w/2)` grid, the V sample then the U sample, each read with its own plane's row and pixel stride |
| `Nv21.Repack` | android/app/src/main/kotlin/com/example/captions_app/NativeEncoderPlugin.kt:302-342 | the NV21 array has length `w*h + (w*h)/2`; byte `row*w+col` is the Y sample; byte `w*h + 2*(row*(w/2)+col)` is the V sample and the next byte the U sample of that cell; the bytes after the last pair are zero; no write leaves the array |
| `Nv21.RepackAtTarget` | android/app/src/main/kotlin/com/example/captions_app/NativeEncoderPlugin.kt:182 | the repack as called, at the session's target size: it runs only when the image's planes cover the target grid, reading each target row at the image's strides; when the target fits inside the image its luma part is the image's top-left crop |
| `Nv21.ContainedTargetIsCrop` | android/app/src/main/kotlin/com/example/captions_app/NativeEncoderPlugin.kt:182 | a target no larger than a well-formed image in either direction can always be read, and each of its luma samples is the image's own at the same row and column |
| `Nv21.WiderTargetRunsOn` | android/app/src/main/kotlin/com/example/captions_app/NativeEncoderPlugin.kt:182 | for a tightly packed luma plane, a wider target that can still be read continues each row into the image's next row: target column `img.width + c` of row `row` is the image's column `c` of row `row + 1` |
| `Nv21.TargetTallerThanImageReadsOutside` | android/app/src/main/kotlin/com/example/captions_app/NativeEncoderPlugin.kt:182 | for an image with a tightly packed luma plane, a target taller than the image makes the repack read past the end of the luma buffer |
| `Nv21.ImageToNv21` | android/app/src/main/kotlin/com/example/captions_app/NativeEncoderPlugin.kt:302-342 | the repack at the image's own size can be run on every image the decoder hands out, whatever the session's target size, and holds every Y, V and U sample of the image |
| `Drain.Step` | android/app/src/main/kotlin/com/example/captions_app/NativeEncoderPlugin.kt:230-246 | one loop iteration releases exactly the dequeued buffer, only appends to the muxer calls, keeps a started muxer started with its track, starts it only on a format change (AddTrack then Start, with the track `addTrack` returned), and makes no muxer call before it is started except that start |
| `Drain.RepeatedFormatChangeIgnored` | android/app/src/main/kotlin/com/example/captions_app/NativeEncoderPlugin.kt:232-233 | a format change once the muxer is started leaves the drain state unchanged |
| `Drain.StepKeepsProtocol` | android/app/src/main/kotlin/com/example/captions_app/NativeEncoderPlugin.kt:230-246 | one loop iteration keeps the muxer protocol (no call before start; one AddTrack then one Start; then only non-empty writes to the added track) |
| `Drain.StepWrites` | android/app/src/main/kotlin/com/example/captions_app/NativeEncoderPlugin.kt:237-243 | one iteration writes the buffer's size exactly when the muxer was started and the buffer is non-empty, and nothing otherwise |
| `Drain.DrainPass` | android/app/src/main/kotlin/com/example/captions_app/NativeEncoderPlugin.kt:229-247 | a pass consumes no more events than the encoder reports |
| `Drain.DrainStopsAtFirstStop` | android/app/src/main/kotlin/com/example/captions_app/NativeEncoderPlugin.kt:229-247 | a pass ends exactly after the first TRY_AGAIN_LATER or END_OF_STREAM buffer: no earlier event stops it and it ends early only on one |
| `Drain.DrainIgnoresLaterEvents` | android/app/src/main/kotlin/com/example/captions_app/NativeEncoderPlugin.kt:231-245 | events after the stopping one are not consumed: appending any events after it changes neither the outcome nor the count |
| `Drain.DrainReleasesEveryBuffer` | android/app/src/main/kotlin/com/example/captions_app/NativeEncoderPlugin.kt:237-244 | every buffer dequeued in a pass is released, in order, whether it was written or not |
| `Drain.DrainStartsMuxerOnce` | android/app/src/main/kotlin/com/example/captions_app/NativeEncoderPlugin.kt:232-236 | a pass keeps the muxer protocol, ends started exactly when it began started or consumed a format change, keeps the track of an already started muxer and otherwise uses the track `addTrack` returned |
| `Drain.DrainWritesNonEmptyAfterStart` | android/app/src/main/kotlin/com/example/captions_app/NativeEncoderPlugin.kt:237-243 | the samples written are exactly the non-empty buffers consumed after the muxer started, in order; buffers before the first format change are dropped |
| `Overlay.Deliver` | android/app/src/main/kotlin/com/example/captions_app/NativeEncoderPlugin.kt:80-87 | a delivery that decodes is stored under its `tMs` (replacing an earlier one, other keys untouched) and becomes `lastOverlay`; a failed decode changes nothing |
| `Overlay.DeliverAll` | android/app/src/main/kotlin/com/example/captions_app/NativeEncoderPlugin.kt:80-87 | after any deliveries the pending keys are the old ones plus exactly the timestamps whose image decoded, and an entry is changed only by a delivery for its own timestamp |
| `Overlay.LastIsLastDelivered` | android/app/src/main/kotlin/com/example/captions_app/NativeEncoderPlugin.kt:83-87 | after any deliveries, `lastOverlay` is the last one that decoded, whatever timestamp it was for, or the previous value if none decoded |
| `Overlay.Take` | android/app/src/main/kotlin/com/example/captions_app/NativeEncoderPlugin.kt:193-200 | the take hits exactly when `tMs` is pending and then returns that entry and removes only that key; on a miss it returns `lastOverlay` (possibly null) and changes nothing |
| `Overlay.DeliverThenTake` | android/app/src/main/kotlin/com/example/captions_app/NativeEncoderPlugin.kt:193-196 | an overlay delivered for `tMs` is what the take for `tMs` returns, and the map is left as before the delivery without that key |
| `Overlay.TakenOnlyOnce` | android/app/src/main/kotlin/com/example/captions_app/NativeEncoderPlugin.kt:195 | with no delivery in between, a second take for the same timestamp misses and falls back |
| `Overlay.OtherTimestampIndependent` | android/app/src/main/kotlin/com/example/captions_app/NativeEncoderPlugin.kt:195-196 | a delivery for another timestamp changes neither whether the take hits nor what a hit returns |
| `Overlay.MissFallsBackToOtherTimestamp` | android/app/src/main/kotlin/com/example/captions_app/NativeEncoderPlugin.kt:199-200 | on a miss the frame gets the overlay last delivered for a different timestamp |
| `DecodeLoop.FeedInput` | android/app/src/main/kotlin/com/example/captions_app/NativeEncoderPlugin.kt:161-175 | once input end of stream was seen nothing more is queued or read; otherwise the extractor position and the queue only grow |
| `DecodeLoop.FeedInputKeepsInvariant` | android/app/src/main/kotlin/com/example/captions_app/NativeEncoderPlugin.kt:163-173 | one input step keeps the queue equal to the samples read so far, in order, plus one end-of-stream marker once the samples ran out |
| `DecodeLoop.FeedAllQueuesSamplesThenEos` | android/app/src/main/kotlin/com/example/captions_app/NativeEncoderPlugin.kt:157-175 | whatever input slots the decoder offers, the queue is the extractor's samples in order followed by at most one end-of-stream marker, and once latched the input state never changes |
| `DecodeLoop.FeedAll` | android/app/src/main/kotlin/com/example/captions_app/NativeEncoderPlugin.kt:161-175 | over a sequence of offered input slots the queue is only appended to, by at most one input per slot, the extractor advances at most once per slot, and nothing changes after input end of stream |
| `DecodeLoop.DivTowardZero` | android/app/src/main/kotlin/com/example/captions_app/NativeEncoderPlugin.kt:185 | `Long` division by a positive divisor rounds toward zero: the remainder has the sign of the dividend and is smaller than the divisor |
| `DecodeLoop.TimestampMs` | android/app/src/main/kotlin/com/example/captions_app/NativeEncoderPlugin.kt:185 | the frame timestamp is the presentation time in microseconds divided by 1000, rounded toward zero |
| `DecodeLoop.HandleOutput` | android/app/src/main/kotlin/com/example/captions_app/NativeEncoderPlugin.kt:177-216 | a decoded image posts one overlay request and appends one frame keyed by its millisecond timestamp, drawn with the pending entry for exactly that timestamp if any, else `lastOverlay`, which the take leaves unchanged; every output buffer is released; a status that is not a buffer changes nothing; output end of stream latches |
| `DecodeLoop.TickAddsImageStamp` | android/app/src/main/kotlin/com/example/captions_app/NativeEncoderPlugin.kt:177-216 | one iteration adds a frame and an overlay request exactly when the decoder hands out an image, both keyed by that image's millisecond timestamp |
| `DecodeLoop.RunTick` | android/app/src/main/kotlin/com/example/captions_app/NativeEncoderPlugin.kt:160-218 | one iteration releases the decoder buffer it dequeued, latches output end of stream exactly on an END_OF_STREAM buffer, feeds no input after input end of stream, and keeps a started muxer started on its track |
| `DecodeLoop.Loop` | android/app/src/main/kotlin/com/example/captions_app/NativeEncoderPlugin.kt:160-219 | the loop runs no iteration once output end of stream is seen, at least one otherwise when one is left, and stops before the world runs out only on output end of stream |
| `DecodeLoop.LoopFramesMatchImages` | android/app/src/main/kotlin/com/example/captions_app/NativeEncoderPlugin.kt:160-219 | over the iterations run, each decoded image becomes exactly one frame and one request, in decode order, keyed by its millisecond timestamp |
| `DecodeLoop.LoopFromStart` | android/app/src/main/kotlin/com/example/captions_app/NativeEncoderPlugin.kt:151-219 | from the state `processLoop` starts in, the frames are one per decoded image of the iterations run, the loop stops right after the first END_OF_STREAM output and has seen one exactly when its last iteration carried it, and the muxer protocol is kept |
| `DecodeLoop.LoopStopsAtOutputEos` | android/app/src/main/kotlin/com/example/captions_app/NativeEncoderPlugin.kt:160-215 | the loop stops right after the first decoder output carrying END_OF_STREAM, and ends earlier only when no iteration is left; `sawOutputEOS` is set at the end exactly when the last iteration carried END_OF_STREAM |
| `DecodeLoop.LoopKeepsInvariants` | android/app/src/main/kotlin/com/example/captions_app/NativeEncoderPlugin.kt:160-219 | across the loop the decoder input queue keeps its shape and the muxer keeps its protocol |
| `Session.StartEncoding` | android/app/src/main/kotlin/com/example/captions_app/NativeEncoderPlugin.kt:102-148 | in the model, where every framework object is created and configured, start fails exactly when no track is video, leaving only the extractor assigned; otherwise every object exists, the muxer state is fresh, the first video and audio tracks are chosen (distinct), the frame rate follows the first video track, and the encoder rate is `EncoderFrameRate` of that rate |
| `Session.AttemptedFrom` | android/app/src/main/kotlin/com/example/captions_app/NativeEncoderPlugin.kt:250-290 | the teardown calls are exactly those it attempts, in teardown order, none twice |
| `Session.Teardown` | android/app/src/main/kotlin/com/example/captions_app/NativeEncoderPlugin.kt:254-289 | both teardowns end with every handle null and the overlay cache empty; their calls are exactly those attempted, in teardown order; each existing object's release is among them; the muxer stop only in a full teardown of a started muxer |
| `Session.NothingToTearDown` | android/app/src/main/kotlin/com/example/captions_app/NativeEncoderPlugin.kt:278-290 | with every handle null a teardown makes no call at all |
| `Session.FinalDrain` | android/app/src/main/kotlin/com/example/captions_app/NativeEncoderPlugin.kt:225-226 | the final drain leaves the muxer state alone when the encoder or the muxer is null, and keeps a started muxer started on its track |
| `Session.FinishEncoding` | android/app/src/main/kotlin/com/example/captions_app/NativeEncoderPlugin.kt:250-276 | finish ends with every handle null and the overlay cache empty; its calls are exactly the end-of-input signal, stops and releases of the objects that exist, in teardown order, with the muxer stopped exactly when it exists and was started; each existing object is released exactly once |
| `Session.ReleaseAll` | android/app/src/main/kotlin/com/example/captions_app/NativeEncoderPlugin.kt:278-290 | cancel ends with every handle null and the overlay cache empty, releases each existing object exactly once in the same order, and makes no stop, drain or end-of-input call |
| `Session.FinishStopsOnlyStartedMuxer` | android/app/src/main/kotlin/com/example/captions_app/NativeEncoderPlugin.kt:262-264 | finish stops the muxer exactly when it was started before or its final drain consumed a format change, and the muxer protocol holds afterwards |
| `Session.CancelAfterFinishIsNoOp` | android/app/src/main/kotlin/com/example/captions_app/NativeEncoderPlugin.kt:278-290 | cancel after finish makes no call and changes nothing |
| `Session.FinishTwiceIsNoOp` | android/app/src/main/kotlin/com/example/captions_app/NativeEncoderPlugin.kt:250-276 | a second finish (the loop's own at line 221, then the `finish` command's) makes no call and changes nothing |
| `Session.FinishDrainsBeforeEndOfInput` | android/app/src/main/kotlin/com/example/captions_app/NativeEncoderPlugin.kt:250-254 | when the encoder's first answer to the final drain is TRY_AGAIN_LATER, none of the samples it hands out afterwards is written |
| `Drain.DrainToEos` | android/app/src/main/kotlin/com/example/captions_app/NativeEncoderPlugin.kt:229-247 | the drain with line 231's TRY_AGAIN_LATER `break` replaced by waiting: it consumes at least one and at most all of the events, and keeps a started muxer started on its track |
| `Drain.DrainToEosStopsAtEos` | android/app/src/main/kotlin/com/example/captions_app/NativeEncoderPlugin.kt:229-247 | the drain to end of stream stops exactly after the first END_OF_STREAM buffer, whatever TRY_AGAIN_LATER answers come before it |
| `Drain.DrainToEosWritesNonEmptyAfterStart` | android/app/src/main/kotlin/com/example/captions_app/NativeEncoderPlugin.kt:237-243 | the drain to end of stream keeps the muxer protocol and writes exactly the non-empty buffers it consumed after the muxer started, in order |
| `Session.FinishToEndOfStream` | android/app/src/main/kotlin/com/example/captions_app/NativeEncoderPlugin.kt:250-276 | the finish that signals end of input before draining to end of stream makes the calls `Attempts` gives for the muxer state its own drain leaves, in the teardown order of `finishEncoding` (so it stops a muxer that drain started, where `finishEncoding`'s drain may not), and ends with every handle null and the overlay cache empty |
| `Session.FinishToEndOfStreamWritesEverySample` | android/app/src/main/kotlin/com/example/captions_app/NativeEncoderPlugin.kt:250-254 | on a started muxer, that finish writes every non-empty sample up to and including the encoder's END_OF_STREAM buffer, across any TRY_AGAIN_LATER answers |
| `Session.TrailingSampleLostByFinish` | android/app/src/main/kotlin/com/example/captions_app/NativeEncoderPlugin.kt:250-254 | on TRY_AGAIN_LATER followed by a 500-byte END_OF_STREAM sample, `finishEncoding` writes nothing while the finish that drains to end of stream writes that sample |
| `Session.FrameLoop` | android/app/src/main/kotlin/com/example/captions_app/NativeEncoderPlugin.kt:151-219 | from a fresh input and output state, the frames are one per decoded image of the iterations run, keyed by its millisecond timestamp, the loop stops right after the first END_OF_STREAM output and has seen one exactly when its last iteration carried it, and the muxer protocol is kept |
| `Session.ProcessLoop` | android/app/src/main/kotlin/com/example/captions_app/NativeEncoderPlugin.kt:151-222 | a run makes one frame per decoded image of the iterations it ran, keyed by the image's millisecond timestamp, in decode order; it stops right after the first decoder output carrying END_OF_STREAM, and only then runs `finishEncoding`, ending torn down with the muxer protocol kept; when no iteration carries END_OF_STREAM it runs every iteration given and makes no teardown, as the loop at line 160 is still polling |

## Left out

- MainActivity.kt is not part of this model: it only opens an Android settings screen over a method channel.
- Flutter wiring (channel registration, `onListen`/`onCancel`, `mainHandler.post` of the request event) is host I/O; an overlay request is recorded as its timestamp in a list.
- The media framework is foreign code: the extractor's samples, the input slots and output statuses of the decoder, the encoder's output statuses and the track `addTrack` returns are inputs; objects are opaque handles.
- Threads and time: the worker thread, the concurrent map and the 80 ms polling wait are replaced by a per-iteration list of the deliveries that land before the take; the take hits exactly when the key is present then. A `finish` or `cancel` command racing a running loop is not modelled.
- Exceptions swallowed by the teardown's `try/catch` blocks: every teardown step is modelled as attempted and total, and the final drain as not throwing. The `!!` null checks on `start` arguments are not modelled.
- Drawing, bitmap scaling, JPEG compress and decode of the NV21 buffer (lines 202-208, 344-348) and `Bitmap.recycle` are graphics calls; the copy kept as `lastOverlay` is modelled by value.
- The bit rate (line 131) is floating point and a tunable; the other encoder format keys are constants passed to the framework.
- Drain.DrainPass: a finite list of encoder statuses stands for the encoder's answers; running out ends the pass as TRY_AGAIN_LATER would.
- Tracks.ToInt32: NaN and infinities of `Double` are not modelled; the session frame rate is a `real`.
- Nv21.Repack: requires each plane to cover the grid it is read on, because otherwise the source's `buffer.get` throws. That exception is uncaught on the worker thread, so Android's default handler ends the app process; the crash is not modelled. Line 182 passes the session's target size, so the requires excludes exactly the sessions whose target grid puts a plane's last read past that plane's end. For a tightly packed luma plane that includes every target taller than the frame (`Nv21.TargetTallerThanImageReadsOutside`), and any wider target whose last row runs past the buffer; a wider target that can still be read gives rows that run on into the frame's next row (`Nv21.WiderTargetRunsOn`). See Findings (`Nv21.RepackAtTarget`, `Nv21.ImageToNv21`). 32-bit overflow of `w*h` is not modelled. The unused `remaining()` sizes are left out.
- Nv21.RepackAtTarget: states only the luma bytes (and the crop only for a target inside the image); the chroma bytes follow `Nv21.Repack` at the target size.
- Session.StartEncoding: the model uses the indices reset to -1 (see Findings).
- Session.StartEncoding: creating and configuring the framework objects is assumed to succeed, and the `start` width and height are not read. In the source, `setDataSource` (line 103) can throw before the extractor field is assigned, leaving the previous one in place; `createDecoderByType`/`configure` (lines 124-125) can throw for a codec with no decoder, the encoder's `configure` (line 139) for an invalid size, and `MediaMuxer` (line 143) for an unwritable output path. Each leaves the objects created before it assigned, and a decoder or encoder already started; the model has no outcome for these.
- Overlay.Deliver: `tMs` arrives through the Flutter channel as an `Int` and is widened to `Long` (line 79), so a frame key outside the 32-bit range can never be delivered; the model's keys are unbounded integers.
- Session.ProcessLoop: the iterations are a finite list; when it runs out before a decoder output carries END_OF_STREAM the result has no teardown. The source's loop at line 160 would keep polling for ever there, never reaching `finishEncoding` at line 221, so the encoder and muxer stay open and the muxer is never stopped; that endless polling is not modelled beyond "no teardown".
- Drain.DrainToEos: a finite list of encoder statuses stands for the encoder's answers; running out before END_OF_STREAM ends the drain, where a real encoder that never sends it would keep it waiting.

## Findings

| source | as written | input that shows it | evidently intended | confidence | as-written member | corrected member |
|---|---|---|---|---|---|---|
| android/app/src/main/kotlin/com/example/captions_app/NativeEncoderPlugin.kt:107-118 | `videoTrackIdx` and `audioTrackIdx` are fields set only by the picking loop and never reset by `startEncoding`, `finishEncoding` or `releaseAll`, so a second session starts the loop from the first session's indices | first session on a file with one video track (indices 0, -1); second session on a file with audio at 0 and video at 1: both indices end 0 and the "video" track is the audio track | reset both indices to -1 before the loop, as `muxerStarted` and `outVideoTrack` are reset at lines 144-145 | medium, not executed | `Tracks.StaleIndicesCollide` | `Tracks.SelectTracksPicksFirst` |
| android/app/src/main/kotlin/com/example/captions_app/NativeEncoderPlugin.kt:182 | `yuv420ToBitmap(image, width, height)` repacks the decoded image at the session's target size from `start`, not at the image's own size; the bitmap is then drawn scaled onto the target rectangle | a 640x360 decoded frame with a tightly packed luma plane and a 1280x720 target: the luma reads run past the end of the Y buffer and `buffer.get` throws on the worker thread; a target no larger than the frame in either direction yields a top-left crop instead of the whole frame (`Nv21.ContainedTargetIsCrop`), and a wider target that can be read runs each row on into the next (`Nv21.WiderTargetRunsOn`) | repack at `image.width` x `image.height` and let the scaled `drawBitmap` resize to the target | medium, not executed | `Nv21.TargetTallerThanImageReadsOutside` | `Nv21.ImageToNv21` |
| android/app/src/main/kotlin/com/example/captions_app/NativeEncoderPlugin.kt:250-254 | `finishEncoding` drains once with `drainEncoder`, whose loop breaks on the first TRY_AGAIN_LATER, and only then calls `signalEndOfInputStream` and stops the encoder; samples the encoder hands out after that drain, up to its END_OF_STREAM buffer, are never written | the final drain gets TRY_AGAIN_LATER, then a 500-byte sample flagged END_OF_STREAM: nothing is written | signal end of input first, then drain until the END_OF_STREAM buffer, waiting through TRY_AGAIN_LATER | medium, not executed | `Session.FinishDrainsBeforeEndOfInput` | `Session.FinishToEndOfStreamWritesEverySample` |

=== FILE: decode_loop.dfy ===
/**
 The frame loop of `processLoop`: per iteration, feed one extractor sample
 (or the end-of-stream marker) to the decoder, handle one decoder output
 (timestamp, overlay take, frame submitted to the encoder), then drain the
 encoder. The loop runs until a decoder output carries END_OF_STREAM.
 */
module DecodeLoop {
  import opened Wrappers
  import opened Sequences
  import opened Overlay
  import opened Drain

  /** An extractor sample: `readSampleData`'s size and `sampleTime`. */
  datatype Sample = Sample(size: nat, ptsUs: int)

  /** What is queued into the decoder's input buffer `slot`. */
  datatype DecoderInput = QueuedSample(slot: nat, size: nat, ptsUs: int) | QueuedEos(slot: nat)

  /** `sawInputEOS`, the extractor's read position and the inputs queued. */
  datatype InputState = InputState(sawInputEOS: bool, cursor: nat, queued: seq<DecoderInput>)

  const InputStart: InputState := InputState(false, 0, [])

  /** `readSampleData`: the next sample's size, or -1 past the last one. */
  function ReadSampleData(samples: seq<Sample>, cursor: nat): int {
    if cursor < |samples| then samples[cursor].size else -1
  }

  /** The input half of an iteration; `slot` is the result of
      `dequeueInputBuffer` (None when it timed out). Once input EOS is seen,
      nothing more is queued. */
  function FeedInput(st: InputState, samples: seq<Sample>, slot: Option<nat>): (r: InputState)
    ensures st.sawInputEOS ==> r == st
    ensures r.cursor >= st.cursor && |r.queued| >= |st.queued|
    ensures r.cursor <= st.cursor + 1 && |r.queued| <= |st.queued| + 1
    ensures r.queued[..|st.queued|] == st.queued
  {
    if st.sawInputEOS || slot.None? then st
    else if ReadSampleData(samples, st.cursor) < 0 then
      st.(sawInputEOS := true, queued := st.queued + [QueuedEos(slot.value)])
    else
      var s := samples[st.cursor];
      InputState(false, st.cursor + 1, st.queued + [QueuedSample(slot.value, s.size, s.ptsUs)])
  }

  /** Successive input halves, one per offered slot: the queue is only
      appended to, by at most one input per slot. */
  function FeedAll(st: InputState, samples: seq<Sample>, slots: seq<Option<nat>>): (r: InputState)
    ensures st.sawInputEOS ==> r == st
    ensures st.cursor <= r.cursor <= st.cursor + |slots|
    ensures |st.queued| <= |r.queued| <= |st.queued| + |slots|
    ensures r.queued[..|st.queued|] == st.queued
    decreases |slots|
  {
    if slots == [] then st else FeedAll(FeedInput(st, samples, slots[0]), samples, slots[1..])
  }

  /** What has been queued so far: the first `cursor` samples in order, then
      one end-of-stream marker once (and only once) the samples ran out. */
  ghost predicate InputInvariant(st: InputState, samples: seq<Sample>) {
    && st.cursor <= |samples|
    && |st.queued| == st.cursor + (if st.sawInputEOS then 1 else 0)
    && (forall j :: 0 <= j < st.cursor ==>
          st.queued[j].QueuedSample?
          && st.queued[j].size == samples[j].size
          && st.queued[j].ptsUs == samples[j].ptsUs)
    && (st.sawInputEOS ==> st.cursor == |samples| && st.queued[st.cursor].QueuedEos?)
  }

  lemma FeedInputKeepsInvariant(st: InputState, samples: seq<Sample>, slot: Option<nat>)
    requires InputInvariant(st, samples)
    ensures InputInvariant(FeedInput(st, samples, slot), samples)
  {
  }

  /** Whatever slots the decoder offers, the inputs queued are the samples in
      extractor order followed by at most one end-of-stream marker, and the
      latch never reopens. */
  lemma {:induction false} FeedAllQueuesSamplesThenEos(st: InputState, samples: seq<Sample>,
                                                       slots: seq<Option<nat>>)
    requires InputInvariant(st, samples)
    ensures InputInvariant(FeedAll(st, samples, slots), samples)
    ensures st.sawInputEOS ==> FeedAll(st, samples, slots) == st
    decreases |slots|
  {
    if slots != [] {
      FeedInputKeepsInvariant(st, samples, slots[0]);
      FeedAllQueuesSamplesThenEos(FeedInput(st, samples, slots[0]), samples, slots[1..]);
    }
  }

  /** Kotlin's `Long` division, which rounds toward zero. */
  function DivTowardZero(a: int, b: int): (q: int)
    requires b > 0
    ensures a >= 0 ==> 0 <= a - b * q < b
    ensures a < 0 ==> -b < a - b * q <= 0
  {
    if a >= 0 then a / b else -((-a) / b)
  }

  /** The frame's millisecond timestamp, `presentationTimeUs / 1000`. */
  function TimestampMs(ptsUs: int): (t: int)
    ensures ptsUs >= 0 ==> 1000 * t <= ptsUs < 1000 * t + 1000
    ensures ptsUs < 0 ==> 1000 * t - 1000 < ptsUs <= 1000 * t
  {
    DivTowardZero(ptsUs, 1000)
  }

  /** What one `dequeueOutputBuffer(info, 10000)` reports: a buffer carries
      its index, whether `getOutputImage` gave an image, the presentation
      time and the END_OF_STREAM flag. */
  datatype DecoderOutput =
    | DecoderTryAgainLater
    | DecoderInfo
    | DecoderBuffer(index: nat, hasImage: bool, ptsUs: int, eos: bool)

  /** A frame drawn into the encoder's input surface, with the overlay drawn
      over it. `tMs` is the key its overlay was requested and taken with; it
      is not handed to the encoder, which stamps the posted surface frame
      with its own time. */
  datatype Frame = Frame(tMs: int, overlay: Option<Bitmap>)

  /** The output half's state: `sawOutputEOS`, the rendezvous, the overlay
      requests posted, the frames submitted and the decoder buffers released. */
  datatype OutputState = OutputState(
    sawOutputEOS: bool,
    rendezvous: Rendezvous,
    requests: seq<int>,
    frames: seq<Frame>,
    releasedOut: seq<nat>)

  /** The output half of an iteration. An image yields one overlay request
      and one frame keyed by its millisecond timestamp, drawn with the overlay
      the take returns; the buffer is released in every case; a status that
      is not a buffer changes nothing. */
  function HandleOutput(st: OutputState, out: DecoderOutput): (r: OutputState)
    ensures out.DecoderBuffer? ==> r.releasedOut == st.releasedOut + [out.index]
    ensures out.DecoderBuffer? && out.hasImage ==>
              var t := TimestampMs(out.ptsUs);
              && r.requests == st.requests + [t]
              && |r.frames| == |st.frames| + 1
              && r.frames[..|st.frames|] == st.frames
              && r.frames[|st.frames|].tMs == t
              && r.frames[|st.frames|].overlay
                   == (if t in st.rendezvous.pending then Some(st.rendezvous.pending[t]) else st.rendezvous.last)
              && r.rendezvous.pending == st.rendezvous.pending - {t}
    ensures !(out.DecoderBuffer? && out.hasImage) ==>
              r.requests == st.requests && r.frames == st.frames && r.rendezvous == st.rendezvous
    ensures r.sawOutputEOS <==> st.sawOutputEOS || (out.DecoderBuffer? && out.eos)
    ensures r.rendezvous.last == st.rendezvous.last
    ensures !out.DecoderBuffer? ==> r == st
  {
    match out
    case DecoderBuffer(i, hasImage, ptsUs, eos) =>
      var drawn :=
        if hasImage then
          var t := TimestampMs(ptsUs);
          var taken := Take(st.rendezvous, t);
          st.(rendezvous := taken.next,
              requests := st.requests + [t],
              frames := st.frames + [Frame(t, taken.overlay)])
        else st;
      drawn.(releasedOut := drawn.releasedOut + [i], sawOutputEOS := drawn.sawOutputEOS || eos)
    case _ => st
  }

  /** What the world does during one iteration: the input slot offered, the
      deliveries that land before this iteration's take, the decoder's output
      and the encoder's answers during the drain that ends the iteration. */
  datatype Tick = Tick(
    slot: Option<nat>,
    deliveries: seq<Delivery>,
    output: DecoderOutput,
    encoder: seq<EncoderEvent>)

  datatype LoopState = LoopState(input: InputState, output: OutputState, drain: DrainState)

  /** One loop iteration; `track` is what the muxer's `addTrack` returns. */
  function RunTick(st: LoopState, samples: seq<Sample>, tick: Tick, track: nat): (r: LoopState)
    ensures r.output.sawOutputEOS <==> st.output.sawOutputEOS || (tick.output.DecoderBuffer? && tick.output.eos)
    ensures st.input.sawInputEOS ==> r.input == st.input
    ensures r.output.releasedOut
              == st.output.releasedOut + (if tick.output.DecoderBuffer? then [tick.output.index] else [])
    ensures st.drain.muxerStarted ==> r.drain.muxerStarted && r.drain.outVideoTrack == st.drain.outVideoTrack
  {
    var input := FeedInput(st.input, samples, tick.slot);
    var arrived := st.output.(rendezvous := DeliverAll(st.output.rendezvous, tick.deliveries));
    var output := HandleOutput(arrived, tick.output);
    var drained := DrainPass(st.drain, tick.encoder, track).state;
    LoopState(input, output, drained)
  }

  datatype Looped = Looped(state: LoopState, iterations: nat)

  /** `while (!sawOutputEOS)` over the iterations the world provides. */
  function Loop(st: LoopState, samples: seq<Sample>, ticks: seq<Tick>, track: nat): (r: Looped)
    ensures r.iterations <= |ticks|
    ensures st.output.sawOutputEOS ==> r == Looped(st, 0)
    ensures r.iterations < |ticks| ==> r.state.output.sawOutputEOS
    ensures !st.output.sawOutputEOS && ticks != [] ==> r.iterations >= 1
    decreases |ticks|
  {
    if st.output.sawOutputEOS || ticks == [] then Looped(st, 0)
    else
      var rest := Loop(RunTick(st, samples, ticks[0], track), samples, ticks[1..], track);
      Looped(rest.state, rest.iterations + 1)
  }

  /** The millisecond timestamps of the decoded images among `ticks`. */
  function ImageStamps(ticks: seq<Tick>): seq<int>
    decreases |ticks|
  {
    if ticks == [] then []
    else
      var out := ticks[0].output;
      (if out.DecoderBuffer? && out.hasImage then [TimestampMs(out.ptsUs)] else [])
      + ImageStamps(ticks[1..])
  }

  function FrameStamps(frames: seq<Frame>): seq<int>
    decreases |frames|
  {
    if frames == [] then [] else [frames[0].tMs] + FrameStamps(frames[1..])
  }

  lemma {:induction false} FrameStampsAppend(a: seq<Frame>, b: seq<Frame>)
    ensures FrameStamps(a + b) == FrameStamps(a) + FrameStamps(b)
    decreases |a|
  {
    if a == [] {
      assert a + b == b;
    } else {
      assert (a + b)[0] == a[0];
      assert (a + b)[1..] == a[1..] + b;
      FrameStampsAppend(a[1..], b);
    }
  }

  lemma ImageStampsCons(t: Tick, rest: seq<Tick>)
    ensures ImageStamps([t] + rest) == ImageStamps([t]) + ImageStamps(rest)
  {
    assert ([t] + rest)[1..] == rest;
    assert [t][1..] == [];
  }

  lemma ImageStampsPrefix(ticks: seq<Tick>, k: nat)
    requires 0 < k <= |ticks|
    ensures ImageStamps(ticks[..k]) == ImageStamps([ticks[0]]) + ImageStamps(ticks[1..][..k - 1])
  {
    assert ticks[..k] == [ticks[0]] + ticks[1..][..k - 1];
    ImageStampsCons(ticks[0], ticks[1..][..k - 1]);
  }

  predicate EndsStream(t: Tick) {
    t.output.DecoderBuffer? && t.output.eos
  }

  /** One iteration adds a frame and a request exactly when the decoder
      hands out an image, at that image's millisecond timestamp. */
  lemma TickAddsImageStamp(st: LoopState, samples: seq<Sample>, t: Tick, track: nat)
    ensures var next := RunTick(st, samples, t, track);
            && FrameStamps(next.output.frames) == FrameStamps(st.output.frames) + ImageStamps([t])
            && next.output.requests == st.output.requests + ImageStamps([t])
  {
    assert [t][1..] == [];
    var before := st.output.frames;
    var next := RunTick(st, samples, t, track);
    if t.output.DecoderBuffer? && t.output.hasImage {
      var f := next.output.frames[|before|];
      assert next.output.frames == before + [f];
      FrameStampsAppend(before, [f]);
      assert [f][1..] == [];
    }
  }

  /** Each decoded image becomes exactly one frame and one overlay request,
      in decode order, at its millisecond timestamp: none dropped, none
      duplicated. */
  lemma {:induction false} LoopFramesMatchImages(st: LoopState, samples: seq<Sample>, ticks: seq<Tick>, track: nat)
    ensures var r := Loop(st, samples, ticks, track);
            && FrameStamps(r.state.output.frames)
                 == FrameStamps(st.output.frames) + ImageStamps(ticks[..r.iterations])
            && r.state.output.requests == st.output.requests + ImageStamps(ticks[..r.iterations])
    decreases |ticks|
  {
    var r := Loop(st, samples, ticks, track);
    if st.output.sawOutputEOS || ticks == [] {
      assert ticks[..0] == [];
    } else {
      var next := RunTick(st, samples, ticks[0], track);
      TickAddsImageStamp(st, samples, ticks[0], track);
      LoopFramesMatchImages(next, samples, ticks[1..], track);
      var rest := Loop(next, samples, ticks[1..], track);
      assert r.state == rest.state && r.iterations == rest.iterations + 1;
      var k := r.iterations;
      ImageStampsPrefix(ticks, k);
      var now := ImageStamps([ticks[0]]);
      var later := ImageStamps(ticks[1..][..k - 1]);
      assert ImageStamps(ticks[..k]) == now + later;
      AppendChain(st.output.requests, next.output.requests, r.state.output.requests, now, later);
      AppendChain(FrameStamps(st.output.frames), FrameStamps(next.output.frames),
                  FrameStamps(r.state.output.frames), now, later);
    }
  }

  /** The loop stops right after the first decoder output that carries
      END_OF_STREAM, and only there or when the world runs out; it ends with
      `sawOutputEOS` set exactly when its last iteration carried it. */
  lemma {:induction false} LoopStopsAtOutputEos(st: LoopState, samples: seq<Sample>, ticks: seq<Tick>, track: nat)
    requires !st.output.sawOutputEOS
    ensures var r := Loop(st, samples, ticks, track);
            var k := r.iterations;
            && (forall j :: 0 <= j < k - 1 ==> !EndsStream(ticks[j]))
            && (k < |ticks| ==> k > 0 && EndsStream(ticks[k - 1]))
            && (r.state.output.sawOutputEOS <==> k > 0 && EndsStream(ticks[k - 1]))
    decreases |ticks|
  {
    if ticks != [] {
      var next := RunTick(st, samples, ticks[0], track);
      if !EndsStream(ticks[0]) {
        assert !next.output.sawOutputEOS;
        LoopStopsAtOutputEos(next, samples, ticks[1..], track);
      } else {
        assert next.output.sawOutputEOS;
      }
    }
  }

  /** Across the loop the input queue keeps its shape and the muxer keeps its
      protocol. */
  lemma {:induction false} LoopKeepsInvariants(st: LoopState, samples: seq<Sample>, ticks: seq<Tick>, track: nat)
    requires InputInvariant(st.input, samples)
    requires MuxerProtocol(st.drain)
    ensures InputInvariant(Loop(st, samples, ticks, track).state.input, samples)
    ensures MuxerProtocol(Loop(st, samples, ticks, track).state.drain)
    decreases |ticks|
  {
    if !st.output.sawOutputEOS && ticks != [] {
      FeedInputKeepsInvariant(st.input, samples, ticks[0].slot);
      DrainStartsMuxerOnce(st.drain, ticks[0].encoder, track);
      LoopKeepsInvariants(RunTick(st, samples, ticks[0], track), samples, ticks[1..], track);
    }
  }

  /** The loop state `processLoop` starts from: nothing queued, no frame,
      no request, over the given overlay cache and muxer state. */
  function Start(rv: Rendezvous, drain: DrainState): LoopState {
    LoopState(InputStart, OutputState(false, rv, [], [], []), drain)
  }

  /** From the start state, the frames are exactly the decoded images of the
      iterations run, the loop stops right after the first output carrying
      END_OF_STREAM (and has seen it exactly then), and the muxer protocol
      is kept. */
  lemma LoopFromStart(rv: Rendezvous, drain: DrainState, samples: seq<Sample>, ticks: seq<Tick>, track: nat)
    requires MuxerProtocol(drain)
    ensures var r := Loop(Start(rv, drain), samples, ticks, track);
            && FrameStamps(r.state.output.frames) == ImageStamps(ticks[..r.iterations])
            && (forall j :: 0 <= j < r.iterations - 1 ==> !EndsStream(ticks[j]))
            && (r.iterations < |ticks| ==> r.iterations > 0 && EndsStream(ticks[r.iterations - 1]))
            && (r.state.output.sawOutputEOS <==> r.iterations > 0 && EndsStream(ticks[r.iterations - 1]))
            && MuxerProtocol(r.state.drain)
  {
    var st := Start(rv, drain);
    LoopFramesMatchImages(st, samples, ticks, track);
    LoopKeepsInvariants(st, samples, ticks, track);
    LoopStopsAtOutputEos(st, samples, ticks, track);
    assert FrameStamps([]) == [];
  }
}

=== FILE: drain.dfy ===
/**
 `drainEncoder`: one pass over the encoder's output queue, feeding the muxer.
 The first "output format changed" event adds the video track and starts the
 muxer; later ones are skipped. Encoded buffers are written only once the
 muxer is started, and every dequeued buffer is released.
 */
module Drain {
  import opened Sequences

  /** What one `dequeueOutputBuffer(info, 0)` call reports. */
  datatype EncoderEvent =
    | TryAgainLater                            // INFO_TRY_AGAIN_LATER
    | FormatChanged                            // INFO_OUTPUT_FORMAT_CHANGED
    | OtherInfo                                // any other negative status
    | Buffer(index: nat, size: int, eos: bool) // a buffer index, `info.size`, END_OF_STREAM flag

  /** Calls made on the muxer. */
  datatype MuxerOp = AddTrack | Start | Write(track: int, size: int)

  /** `muxerStarted`, `outVideoTrack`, the muxer calls made so far and the
      encoder buffer indices released so far. */
  datatype DrainState = DrainState(
    muxerStarted: bool,
    outVideoTrack: int,
    muxerLog: seq<MuxerOp>,
    released: seq<nat>)

  /** The state `startEncoding` leaves for a new muxer. */
  const Initial: DrainState := DrainState(false, -1, [], [])

  /** Events that end a drain pass. */
  predicate Stops(e: EncoderEvent) {
    e.TryAgainLater? || (e.Buffer? && e.eos)
  }

  /** The muxer protocol: before start no call at all; once started, exactly
      one AddTrack and one Start, in that order, followed only by writes of
      non-empty samples to the track AddTrack returned. */
  ghost predicate MuxerProtocol(st: DrainState) {
    if !st.muxerStarted then
      st.muxerLog == []
    else
      && |st.muxerLog| >= 2
      && st.muxerLog[0] == AddTrack
      && st.muxerLog[1] == Start
      && st.outVideoTrack >= 0
      && forall j :: 2 <= j < |st.muxerLog| ==>
           st.muxerLog[j].Write? && st.muxerLog[j].track == st.outVideoTrack && st.muxerLog[j].size > 0
  }

  /** One loop iteration on event `e`; `track` is what `addTrack` returns. */
  function Step(st: DrainState, e: EncoderEvent, track: nat): (r: DrainState)
    ensures r.released == st.released + (if e.Buffer? then [e.index] else [])
    ensures |r.muxerLog| >= |st.muxerLog| && r.muxerLog[..|st.muxerLog|] == st.muxerLog
    ensures st.muxerStarted ==> r.muxerStarted && r.outVideoTrack == st.outVideoTrack
    ensures r.muxerStarted != st.muxerStarted ==>
              e.FormatChanged? && r.outVideoTrack == track && r.muxerLog == st.muxerLog + [AddTrack, Start]
    ensures !st.muxerStarted && !e.FormatChanged? ==> r.muxerLog == st.muxerLog
  {
    match e
    case TryAgainLater => st
    case OtherInfo => st
    case FormatChanged =>
      if st.muxerStarted then st
      else DrainState(true, track, st.muxerLog + [AddTrack, Start], st.released)
    case Buffer(i, size, _) =>
      var write := size > 0 && st.muxerStarted && st.outVideoTrack >= 0;
      st.(muxerLog := st.muxerLog + (if write then [Write(st.outVideoTrack, size)] else []),
          released := st.released + [i])
  }

  /** A second format change is skipped: it changes nothing. */
  lemma RepeatedFormatChangeIgnored(st: DrainState, track: nat)
    requires st.muxerStarted
    ensures Step(st, FormatChanged, track) == st
  {
  }

  /** Each step keeps the muxer protocol. */
  lemma StepKeepsProtocol(st: DrainState, e: EncoderEvent, track: nat)
    requires MuxerProtocol(st)
    ensures MuxerProtocol(Step(st, e, track))
  {
  }

  /** Result of a pass: the new state and how many events it consumed. */
  datatype Drained = Drained(state: DrainState, consumed: nat)

  /** The drain loop over the events the encoder reports, in order. An
      exhausted sequence ends the pass as TRY_AGAIN_LATER would. */
  function DrainPass(st: DrainState, events: seq<EncoderEvent>, track: nat): (r: Drained)
    ensures r.consumed <= |events|
    ensures events != [] ==> r.consumed >= 1
    ensures st.muxerStarted ==> r.state.muxerStarted && r.state.outVideoTrack == st.outVideoTrack
    decreases |events|
  {
    if events == [] then Drained(st, 0)
    else
      var next := Step(st, events[0], track);
      if Stops(events[0]) then Drained(next, 1)
      else
        var rest := DrainPass(next, events[1..], track);
        Drained(rest.state, rest.consumed + 1)
  }

  /** Indices of the buffers among `events`, in order. */
  function BufferIndices(events: seq<EncoderEvent>): seq<nat> {
    if events == [] then []
    else (if events[0].Buffer? then [events[0].index] else []) + BufferIndices(events[1..])
  }

  /** Sizes of the non-empty buffers among `events`, in order. */
  function NonEmptySizes(events: seq<EncoderEvent>): seq<int> {
    if events == [] then []
    else (if events[0].Buffer? && events[0].size > 0 then [events[0].size] else [])
         + NonEmptySizes(events[1..])
  }

  /** The events a started muxer sees: all of them when it already was
      started, else those after the first format change. */
  function AfterStart(started: bool, events: seq<EncoderEvent>): seq<EncoderEvent>
    decreases |events|
  {
    if started || events == [] then events
    else AfterStart(events[0].FormatChanged?, events[1..])
  }

  /** Sizes of the samples written, in order. */
  function WrittenSizes(log: seq<MuxerOp>): seq<int> {
    if log == [] then []
    else (if log[0].Write? then [log[0].size] else []) + WrittenSizes(log[1..])
  }

  predicate HasFormatChange(events: seq<EncoderEvent>) {
    exists j :: 0 <= j < |events| && events[j].FormatChanged?
  }

  lemma WrittenSizesAppend(a: seq<MuxerOp>, b: seq<MuxerOp>)
    ensures WrittenSizes(a + b) == WrittenSizes(a) + WrittenSizes(b)
  {
    if a == [] {
      assert a + b == b;
    } else {
      assert (a + b)[0] == a[0];
      assert (a + b)[1..] == a[1..] + b;
      WrittenSizesAppend(a[1..], b);
    }
  }

  lemma NonEmptySizesCons(e: EncoderEvent, rest: seq<EncoderEvent>)
    ensures NonEmptySizes([e] + rest) == NonEmptySizes([e]) + NonEmptySizes(rest)
  {
    assert ([e] + rest)[1..] == rest;
    assert [e][1..] == [];
  }

  /** What one step writes: the buffer's size when the muxer was already
      started and the buffer is non-empty, nothing otherwise. */
  lemma StepWrites(st: DrainState, e: EncoderEvent, track: nat)
    requires MuxerProtocol(st)
    ensures WrittenSizes(Step(st, e, track).muxerLog)
              == WrittenSizes(st.muxerLog) + (if st.muxerStarted then NonEmptySizes([e]) else [])
  {
    assert [e][1..] == [];
    match e
    case Buffer(i, size, _) =>
      var added := if size > 0 && st.muxerStarted && st.outVideoTrack >= 0
                   then [Write(st.outVideoTrack, size)] else [];
      WrittenSizesAppend(st.muxerLog, added);
      if added != [] {
        assert added[1..] == [];
      }
    case FormatChanged =>
      if !st.muxerStarted {
        WrittenSizesAppend(st.muxerLog, [AddTrack, Start]);
        assert [AddTrack, Start][1..] == [Start];
        assert [AddTrack, Start][1..][1..] == [];
      }
    case TryAgainLater =>
    case OtherInfo =>
  }

  /** The events a pass consumed: the first, then (unless it stopped the
      pass) what the rest of the pass consumed. */
  lemma ConsumedSplit(events: seq<EncoderEvent>, k: nat, stopped: bool)
    requires 0 < k <= |events| && (stopped ==> k == 1)
    ensures events[..k] == [events[0]] + (if stopped then [] else events[1..][..k - 1])
  {
  }

  lemma AfterStartCons(started: bool, e: EncoderEvent, tail: seq<EncoderEvent>)
    ensures NonEmptySizes(AfterStart(started, [e] + tail))
              == (if started then NonEmptySizes([e]) else [])
                 + NonEmptySizes(AfterStart(started || e.FormatChanged?, tail))
  {
    assert ([e] + tail)[1..] == tail;
    if started {
      NonEmptySizesCons(e, tail);
    }
  }

  /** A pass stops exactly after the first TRY_AGAIN_LATER or end-of-stream
      buffer: no earlier event stops it, and it ends early only on one. */
  lemma {:induction false} DrainStopsAtFirstStop(st: DrainState, events: seq<EncoderEvent>, track: nat)
    ensures var k := DrainPass(st, events, track).consumed;
            && (|events| > 0 ==> k > 0)
            && (forall j :: 0 <= j < k - 1 ==> !Stops(events[j]))
            && (k < |events| ==> Stops(events[k - 1]))
            && (k == |events| && k > 0 && !Stops(events[k - 1]) ==>
                  forall j :: 0 <= j < |events| ==> !Stops(events[j]))
    decreases |events|
  {
    if events != [] && !Stops(events[0]) {
      DrainStopsAtFirstStop(Step(st, events[0], track), events[1..], track);
    }
  }

  /** Nothing after the stopping event is consumed: appending more events
      after it changes neither the outcome nor the count. */
  lemma {:induction false} DrainIgnoresLaterEvents(st: DrainState, events: seq<EncoderEvent>,
                                                   later: seq<EncoderEvent>, track: nat)
    requires exists j :: 0 <= j < |events| && Stops(events[j])
    ensures DrainPass(st, events + later, track) == DrainPass(st, events, track)
    decreases |events|
  {
    assert (events + later)[0] == events[0];
    if !Stops(events[0]) {
      assert (events + later)[1..] == events[1..] + later;
      var j :| 0 <= j < |events| && Stops(events[j]);
      assert Stops(events[1..][j - 1]);
      DrainIgnoresLaterEvents(Step(st, events[0], track), events[1..], later, track);
    }
  }

  /** Every buffer dequeued in the pass is released, in order, whether it
      was written or not. */
  lemma {:induction false} DrainReleasesEveryBuffer(st: DrainState, events: seq<EncoderEvent>, track: nat)
    ensures var r := DrainPass(st, events, track);
            r.state.released == st.released + BufferIndices(events[..r.consumed])
    decreases |events|
  {
    if events != [] {
      var next := Step(st, events[0], track);
      if Stops(events[0]) {
        assert events[..1][1..] == [];
      } else {
        DrainReleasesEveryBuffer(next, events[1..], track);
        var k := DrainPass(next, events[1..], track).consumed;
        assert events[..k + 1][1..] == events[1..][..k];
      }
    }
  }

  /** The pass keeps the muxer protocol, so the muxer is started at most once
      and never written before it is started. It ends started exactly when it
      began started or consumed a format change, and an already started muxer
      keeps its track. */
  lemma {:induction false} DrainStartsMuxerOnce(st: DrainState, events: seq<EncoderEvent>, track: nat)
    requires MuxerProtocol(st)
    ensures var r := DrainPass(st, events, track);
            && MuxerProtocol(r.state)
            && (r.state.muxerStarted <==> st.muxerStarted || HasFormatChange(events[..r.consumed]))
            && (st.muxerStarted ==> r.state.outVideoTrack == st.outVideoTrack)
            && (!st.muxerStarted && r.state.muxerStarted ==> r.state.outVideoTrack == track)
    decreases |events|
  {
    if events != [] {
      var next := Step(st, events[0], track);
      StepKeepsProtocol(st, events[0], track);
      if Stops(events[0]) {
        assert events[..1] == [events[0]];
      } else {
        DrainStartsMuxerOnce(next, events[1..], track);
        var k := DrainPass(next, events[1..], track).consumed;
        var taken := events[..k + 1];
        assert taken[0] == events[0];
        assert taken[1..] == events[1..][..k];
        if HasFormatChange(events[1..][..k]) {
          var j :| 0 <= j < k && events[1..][..k][j].FormatChanged?;
          assert taken[j + 1].FormatChanged?;
        }
        if HasFormatChange(taken) && !events[0].FormatChanged? {
          var j :| 0 <= j < |taken| && taken[j].FormatChanged?;
          assert j > 0;
          assert events[1..][..k][j - 1].FormatChanged?;
        }
      }
    }
  }

  /** The samples written are exactly the non-empty buffers consumed after
      the muxer started, in order; buffers seen before the first format change
      are dropped. */
  lemma {:induction false} DrainWritesNonEmptyAfterStart(st: DrainState, events: seq<EncoderEvent>, track: nat)
    requires MuxerProtocol(st)
    ensures var r := DrainPass(st, events, track);
            WrittenSizes(r.state.muxerLog)
              == WrittenSizes(st.muxerLog) + NonEmptySizes(AfterStart(st.muxerStarted, events[..r.consumed]))
    decreases |events|
  {
    if events != [] {
      var e := events[0];
      var next := Step(st, e, track);
      var r := DrainPass(st, events, track);
      var tail := if Stops(e) then [] else events[1..][..r.consumed - 1];
      ConsumedSplit(events, r.consumed, Stops(e));
      StepKeepsProtocol(st, e, track);
      StepWrites(st, e, track);
      AfterStartCons(st.muxerStarted, e, tail);
      assert next.muxerStarted == (st.muxerStarted || e.FormatChanged?);
      if !Stops(e) {
        DrainWritesNonEmptyAfterStart(next, events[1..], track);
      }
      AppendChain(WrittenSizes(st.muxerLog), WrittenSizes(next.muxerLog), WrittenSizes(r.state.muxerLog),
                  if st.muxerStarted then NonEmptySizes([e]) else [],
                  NonEmptySizes(AfterStart(next.muxerStarted, tail)));
    }
  }

  /** The encoder's last output: a buffer flagged END_OF_STREAM. */
  predicate EndsOutput(e: EncoderEvent) {
    e.Buffer? && e.eos
  }

  /** A drain that runs until the encoder's END_OF_STREAM buffer, reading
      TRY_AGAIN_LATER as "nothing yet" rather than as the end: the drain a
      finish needs once it has signalled end of input. An exhausted sequence
      ends it. */
  function DrainToEos(st: DrainState, events: seq<EncoderEvent>, track: nat): (r: Drained)
    ensures r.consumed <= |events|
    ensures events != [] ==> r.consumed >= 1
    ensures st.muxerStarted ==> r.state.muxerStarted && r.state.outVideoTrack == st.outVideoTrack
    decreases |events|
  {
    if events == [] then Drained(st, 0)
    else
      var next := Step(st, events[0], track);
      if EndsOutput(events[0]) then Drained(next, 1)
      else
        var rest := DrainToEos(next, events[1..], track);
        Drained(rest.state, rest.consumed + 1)
  }

  /** The drain to end of stream stops exactly after the first END_OF_STREAM
      buffer, whatever TRY_AGAIN_LATER answers come before it. */
  lemma {:induction false} DrainToEosStopsAtEos(st: DrainState, events: seq<EncoderEvent>, track: nat)
    ensures var k := DrainToEos(st, events, track).consumed;
            && (|events| > 0 ==> k > 0)
            && (forall j :: 0 <= j < k - 1 ==> !EndsOutput(events[j]))
            && (k < |events| ==> EndsOutput(events[k - 1]))
    decreases |events|
  {
    if events != [] && !EndsOutput(events[0]) {
      DrainToEosStopsAtEos(Step(st, events[0], track), events[1..], track);
    }
  }

  /** The drain to end of stream keeps the muxer protocol and writes exactly
      the non-empty buffers it consumed after the muxer started, in order. */
  lemma {:induction false} DrainToEosWritesNonEmptyAfterStart(st: DrainState, events: seq<EncoderEvent>,
                                                              track: nat)
    requires MuxerProtocol(st)
    ensures var r := DrainToEos(st, events, track);
            && MuxerProtocol(r.state)
            && WrittenSizes(r.state.muxerLog)
                 == WrittenSizes(st.muxerLog) + NonEmptySizes(AfterStart(st.muxerStarted, events[..r.consumed]))
    decreases |events|
  {
    if events != [] {
      var e := events[0];
      var next := Step(st, e, track);
      var r := DrainToEos(st, events, track);
      var tail := if EndsOutput(e) then [] else events[1..][..r.consumed - 1];
      ConsumedSplit(events, r.consumed, EndsOutput(e));
      StepKeepsProtocol(st, e, track);
      StepWrites(st, e, track);
      AfterStartCons(st.muxerStarted, e, tail);
      assert next.muxerStarted == (st.muxerStarted || e.FormatChanged?);
      if !EndsOutput(e) {
        DrainToEosWritesNonEmptyAfterStart(next, events[1..], track);
      }
      AppendChain(WrittenSizes(st.muxerLog), WrittenSizes(next.muxerLog), WrittenSizes(r.state.muxerLog),
                  if st.muxerStarted then NonEmptySizes([e]) else [],
                  NonEmptySizes(AfterStart(next.muxerStarted, tail)));
    }
  }
}

=== FILE: nv21.dfy ===
/**
 The first half of `yuv420ToBitmap`: repacking a YUV_420_888 image (three
 planes, each with its own row and pixel stride) into one NV21 byte array,
 the full luma plane followed by interleaved V,U pairs for the 2x2-subsampled
 chroma grid.
 */
module Nv21 {

  newtype byte = x: int | 0 <= x < 256

  /** One image plane: its buffer and the strides that locate a sample in it. */
  datatype Plane = Plane(buffer: seq<byte>, rowStride: int, pixelStride: int)

  /** Buffer offset of the sample at (`row`, `col`), as `buffer.get` receives it. */
  function SampleIndex(p: Plane, row: int, col: int): int {
    row * p.rowStride + col * p.pixelStride
  }

  lemma MulMono(a: int, b: int, c: int)
    requires 0 <= a <= b && 0 <= c
    ensures 0 <= a * c <= b * c
  {
  }

  /** Strides are non-negative and every sample of a `rows` x `cols` grid
      lies inside the buffer; the buffer reads of the repack throw otherwise. */
  predicate Covers(p: Plane, rows: int, cols: int) {
    && p.rowStride >= 0
    && p.pixelStride >= 0
    && (rows <= 0 || cols <= 0 || SampleIndex(p, rows - 1, cols - 1) < |p.buffer|)
  }

  lemma SampleInBounds(p: Plane, rows: int, cols: int, row: int, col: int)
    requires Covers(p, rows, cols)
    requires 0 <= row < rows && 0 <= col < cols
    ensures 0 <= SampleIndex(p, row, col) < |p.buffer|
  {
    MulMono(row, rows - 1, p.rowStride);
    MulMono(col, cols - 1, p.pixelStride);
  }

  /** The sample at (`row`, `col`) of a plane covering a `rows` x `cols` grid. */
  function Sample(p: Plane, rows: int, cols: int, row: int, col: int): byte
    requires Covers(p, rows, cols)
    requires 0 <= row < rows && 0 <= col < cols
  {
    SampleInBounds(p, rows, cols, row, col);
    p.buffer[SampleIndex(p, row, col)]
  }

  /** Length of the NV21 array the repack allocates. */
  function Nv21Length(w: nat, h: nat): int {
    w * h + (w * h) / 2
  }

  /** End of the V,U pairs: everything after it stays zero. */
  function ChromaEnd(w: nat, h: nat): int {
    w * h + 2 * ((h / 2) * (w / 2))
  }

  /** The V,U pairs fit in the allocated array, for odd sizes too. */
  lemma ChromaFits(w: nat, h: nat)
    ensures 0 <= w * h <= ChromaEnd(w, h) <= Nv21Length(w, h)
  {
    var cw, ch := w / 2, h / 2;
    MulMono(2 * ch, h, w);
    MulMono(2 * cw, w, 2 * ch);
    assert 4 * (ch * cw) == (2 * cw) * (2 * ch);
    assert 4 * (ch * cw) <= w * h;
  }

  /** Where the luma sample (`row`, `col`) lands. */
  function YPos(w: nat, h: nat, row: int, col: int): (i: int)
    requires 0 <= row < h && 0 <= col < w
    ensures 0 <= i < w * h
  {
    MulMono(row, h - 1, w);
    row * w + col
  }

  /** Offset of the V sample of chroma cell (`row`, `col`) within the V,U
      pairs of a `ch` x `cw` chroma grid; its U sample follows. */
  function PairPos(cw: nat, ch: nat, row: int, col: int): (i: int)
    requires 0 <= row < ch && 0 <= col < cw
    ensures 0 <= i && i + 2 <= 2 * (ch * cw)
  {
    MulMono(row, ch - 1, cw);
    2 * (row * cw + col)
  }

  /** Where the V sample of chroma cell (`row`, `col`) lands in the NV21
      array; its U sample follows at the next index. */
  function CPos(w: nat, h: nat, row: int, col: int): (i: int)
    requires 0 <= row < h / 2 && 0 <= col < w / 2
    ensures w * h <= i && i + 2 <= ChromaEnd(w, h) <= Nv21Length(w, h)
  {
    ChromaFits(w, h);
    w * h + PairPos(w / 2, h / 2, row, col)
  }

  /** One luma row: `w` samples read at `row * rowStride + col * pixelStride`. */
  method LumaRow(y: Plane, w: nat, h: nat, row: nat) returns (out: seq<byte>)
    requires Covers(y, h, w) && row < h
    ensures |out| == w
    ensures forall col :: 0 <= col < w ==> out[col] == Sample(y, h, w, row, col)
  {
    out := [];
    var col := 0;
    var yIdx := row * y.rowStride;
    while col < w
      invariant 0 <= col <= w
      invariant |out| == col
      invariant yIdx == SampleIndex(y, row, col)
      invariant forall c :: 0 <= c < col ==> out[c] == Sample(y, h, w, row, c)
    {
      SampleInBounds(y, h, w, row, col);
      out := out + [y.buffer[yIdx]];
      yIdx := yIdx + y.pixelStride;
      col := col + 1;
    }
  }

  /** The luma copy: `h` rows of `w` samples, row after row. */
  method CopyLuma(y: Plane, w: nat, h: nat) returns (out: seq<byte>)
    requires Covers(y, h, w)
    ensures |out| == w * h
    ensures forall row, col :: 0 <= row < h && 0 <= col < w ==>
              out[YPos(w, h, row, col)] == Sample(y, h, w, row, col)
  {
    out := [];
    var row := 0;
    while row < h
      invariant 0 <= row <= h
      invariant |out| == row * w
      invariant forall r, c :: 0 <= r < row && 0 <= c < w ==>
                  YPos(w, h, r, c) < |out| && out[YPos(w, h, r, c)] == Sample(y, h, w, r, c)
    {
      var line := LumaRow(y, w, h, row);
      assert (row + 1) * w == row * w + w;
      out := out + line;
      row := row + 1;
    }
  }

  /** One row of chroma cells: for each, the V sample then the U sample,
      each read with its own plane's strides. */
  method ChromaRow(u: Plane, v: Plane, cw: nat, ch: nat, row: nat) returns (out: seq<byte>)
    requires Covers(u, ch, cw) && Covers(v, ch, cw) && row < ch
    ensures |out| == 2 * cw
    ensures forall col :: 0 <= col < cw ==>
              out[2 * col] == Sample(v, ch, cw, row, col) && out[2 * col + 1] == Sample(u, ch, cw, row, col)
  {
    out := [];
    var col := 0;
    var uIdx := row * u.rowStride;
    var vIdx := row * v.rowStride;
    while col < cw
      invariant 0 <= col <= cw
      invariant |out| == 2 * col
      invariant uIdx == SampleIndex(u, row, col)
      invariant vIdx == SampleIndex(v, row, col)
      invariant forall c :: 0 <= c < col ==>
                  out[2 * c] == Sample(v, ch, cw, row, c) && out[2 * c + 1] == Sample(u, ch, cw, row, c)
    {
      SampleInBounds(v, ch, cw, row, col);
      SampleInBounds(u, ch, cw, row, col);
      var vVal := v.buffer[vIdx];
      var uVal := u.buffer[uIdx];
      out := out + [vVal, uVal];
      uIdx := uIdx + u.pixelStride;
      vIdx := vIdx + v.pixelStride;
      col := col + 1;
    }
  }

  /** The chroma interleave over the `ch` x `cw` grid, row after row. */
  method InterleaveChroma(u: Plane, v: Plane, cw: nat, ch: nat) returns (out: seq<byte>)
    requires Covers(u, ch, cw) && Covers(v, ch, cw)
    ensures |out| == 2 * (ch * cw)
    ensures forall row, col :: 0 <= row < ch && 0 <= col < cw ==>
              && out[PairPos(cw, ch, row, col)] == Sample(v, ch, cw, row, col)
              && out[PairPos(cw, ch, row, col) + 1] == Sample(u, ch, cw, row, col)
  {
    out := [];
    var row := 0;
    while row < ch
      invariant 0 <= row <= ch
      invariant |out| == 2 * (row * cw)
      invariant forall r, c :: 0 <= r < row && 0 <= c < cw ==>
                  && PairPos(cw, ch, r, c) + 1 < |out|
                  && out[PairPos(cw, ch, r, c)] == Sample(v, ch, cw, r, c)
                  && out[PairPos(cw, ch, r, c) + 1] == Sample(u, ch, cw, r, c)
    {
      var line := ChromaRow(u, v, cw, ch, row);
      assert (row + 1) * cw == row * cw + cw;
      out := out + line;
      row := row + 1;
    }
  }

  /** The NV21 repack: the luma plane, then the V,U pairs, in an array of
      `w*h + (w*h)/2` bytes. For odd `w` or `h` the bytes past the last pair
      keep the array's initial zero, and no write leaves the array. */
  method Repack(y: Plane, u: Plane, v: Plane, w: nat, h: nat) returns (nv21: seq<byte>)
    requires Covers(y, h, w)
    requires Covers(u, h / 2, w / 2)
    requires Covers(v, h / 2, w / 2)
    ensures |nv21| == Nv21Length(w, h)
    ensures forall row, col :: 0 <= row < h && 0 <= col < w ==>
              nv21[YPos(w, h, row, col)] == Sample(y, h, w, row, col)
    ensures forall row, col :: 0 <= row < h / 2 && 0 <= col < w / 2 ==>
              && nv21[CPos(w, h, row, col)] == Sample(v, h / 2, w / 2, row, col)
              && nv21[CPos(w, h, row, col) + 1] == Sample(u, h / 2, w / 2, row, col)
    ensures forall i :: ChromaEnd(w, h) <= i < |nv21| ==> nv21[i] == 0
  {
    ChromaFits(w, h);
    var luma := CopyLuma(y, w, h);
    var chroma := InterleaveChroma(u, v, w / 2, h / 2);
    var padding := seq(Nv21Length(w, h) - ChromaEnd(w, h), _ => 0 as byte);
    nv21 := luma + chroma + padding;
    forall row, col | 0 <= row < h && 0 <= col < w
      ensures nv21[YPos(w, h, row, col)] == Sample(y, h, w, row, col)
    {
      assert nv21[YPos(w, h, row, col)] == luma[YPos(w, h, row, col)];
    }
    forall row, col | 0 <= row < h / 2 && 0 <= col < w / 2
      ensures nv21[CPos(w, h, row, col)] == Sample(v, h / 2, w / 2, row, col)
      ensures nv21[CPos(w, h, row, col) + 1] == Sample(u, h / 2, w / 2, row, col)
    {
      var k := PairPos(w / 2, h / 2, row, col);
      assert CPos(w, h, row, col) == |luma| + k;
      assert nv21[|luma| + k] == chroma[k];
      assert nv21[|luma| + k + 1] == chroma[k + 1];
    }
  }

  /** A decoded YUV_420_888 image: its own size and its three planes. */
  datatype Image = Image(width: nat, height: nat, y: Plane, u: Plane, v: Plane)

  /** What the decoder hands out: each plane covers its own grid at the
      image's size, the chroma planes at half size. */
  predicate WellFormed(img: Image) {
    && Covers(img.y, img.height, img.width)
    && Covers(img.u, img.height / 2, img.width / 2)
    && Covers(img.v, img.height / 2, img.width / 2)
  }

  /** Whether every read of a repack at `w` x `h` stays inside the image's
      planes. */
  predicate ReadableAt(img: Image, w: nat, h: nat) {
    Covers(img.y, h, w) && Covers(img.u, h / 2, w / 2) && Covers(img.v, h / 2, w / 2)
  }

  /** A plane covering a grid covers every smaller grid too. */
  lemma CoversSmaller(p: Plane, rows: int, cols: int, rows2: int, cols2: int)
    requires Covers(p, rows, cols)
    requires 0 <= rows2 <= rows && 0 <= cols2 <= cols
    ensures Covers(p, rows2, cols2)
  {
    if rows2 > 0 && cols2 > 0 {
      MulMono(rows2 - 1, rows - 1, p.rowStride);
      MulMono(cols2 - 1, cols - 1, p.pixelStride);
    }
  }

  /** A target no larger than the image in either direction can be read,
      and its samples are the image's own at the same row and column: a
      top-left crop. */
  lemma ContainedTargetIsCrop(img: Image, width: nat, height: nat)
    requires WellFormed(img)
    requires width <= img.width && height <= img.height
    ensures ReadableAt(img, width, height)
    ensures forall row, col :: 0 <= row < height && 0 <= col < width ==>
              Sample(img.y, height, width, row, col) == Sample(img.y, img.height, img.width, row, col)
  {
    CoversSmaller(img.y, img.height, img.width, height, width);
    CoversSmaller(img.u, img.height / 2, img.width / 2, height / 2, width / 2);
    CoversSmaller(img.v, img.height / 2, img.width / 2, height / 2, width / 2);
  }

  /** A target wider than an image with a tightly packed luma plane that can
      still be read (it is not taller than the buffer allows): a target row
      runs past the image's right edge into the image's next row, so the
      target's column `img.width + c` of row `row` is the image's column `c`
      of row `row + 1`. Not a crop. */
  lemma WiderTargetRunsOn(img: Image, width: nat, height: nat, row: nat, col: nat)
    requires WellFormed(img)
    requires img.y.rowStride == img.width && img.y.pixelStride == 1
    requires ReadableAt(img, width, height)
    requires row < height && img.width <= col < width
    requires row + 1 < img.height && col - img.width < img.width
    ensures Sample(img.y, height, width, row, col)
              == Sample(img.y, img.height, img.width, row + 1, col - img.width)
  {
  }

  /** `yuv420ToBitmap(image, width, height)` as called from the frame loop,
      with the session's target size rather than the image's: it runs only
      when the planes cover the target grid, reading each target row at the
      image's strides. When the target fits inside the image, the luma part
      is the image's top-left `width` x `height` crop, not a scaled copy;
      a wider target runs on into the next image row (`WiderTargetRunsOn`). */
  method RepackAtTarget(img: Image, width: nat, height: nat) returns (nv21: seq<byte>)
    requires ReadableAt(img, width, height)
    ensures |nv21| == Nv21Length(width, height)
    ensures forall row, col :: 0 <= row < height && 0 <= col < width ==>
              nv21[YPos(width, height, row, col)] == Sample(img.y, height, width, row, col)
    ensures WellFormed(img) && width <= img.width && height <= img.height ==>
              forall row, col :: 0 <= row < height && 0 <= col < width ==>
                nv21[YPos(width, height, row, col)] == Sample(img.y, img.height, img.width, row, col)
  {
    nv21 := Repack(img.y, img.u, img.v, width, height);
    if WellFormed(img) && width <= img.width && height <= img.height {
      ContainedTargetIsCrop(img, width, height);
    }
  }

  /** An image with a tightly packed luma plane (row stride = width, pixel
      stride 1, nothing after the last row), repacked at a target taller
      than the image: the last luma read of the target grid is past the end
      of the buffer, so `buffer.get` throws. A 640x360 frame at a 1280x720
      target is one such case. */
  lemma {:induction false} TargetTallerThanImageReadsOutside(img: Image, width: nat, height: nat)
    requires img.y.rowStride == img.width && img.y.pixelStride == 1
    requires |img.y.buffer| == img.width * img.height
    requires width >= 1 && height > img.height
    ensures !ReadableAt(img, width, height)
  {
    MulMono(img.height, height - 1, img.width);
  }

  /** The repack at the image's own size, which the scaled `drawBitmap` onto
      the target rectangle then resizes: it can be called on every image the
      decoder hands out, whatever the session's target size, and holds every
      sample of the image. */
  method ImageToNv21(img: Image) returns (nv21: seq<byte>)
    requires WellFormed(img)
    ensures |nv21| == Nv21Length(img.width, img.height)
    ensures forall row, col :: 0 <= row < img.height && 0 <= col < img.width ==>
              nv21[YPos(img.width, img.height, row, col)] == Sample(img.y, img.height, img.width, row, col)
    ensures forall row, col :: 0 <= row < img.height / 2 && 0 <= col < img.width / 2 ==>
              && nv21[CPos(img.width, img.height, row, col)] == Sample(img.v, img.height / 2, img.width / 2, row, col)
              && nv21[CPos(img.width, img.height, row, col) + 1] == Sample(img.u, img.height / 2, img.width / 2, row, col)
  {
    nv21 := Repack(img.y, img.u, img.v, img.width, img.height);
  }
}

=== FILE: overlay.dfy ===
/**
 The overlay rendezvous: `deliverOverlay` stores a decoded overlay under its
 millisecond timestamp and remembers a copy as the last delivered overlay;
 the frame loop takes the entry for its own timestamp, or falls back to that
 last delivered overlay when none is there by the end of the bounded wait.
 */
module Overlay {
  import opened Wrappers

  /** An overlay bitmap, by content. The copy kept as `lastOverlay` has the
      same content as the stored bitmap, so it is the same value here. */
  datatype Bitmap = Bitmap(pixels: seq<int>)

  /** `pendingOverlays` (timestamp to bitmap) and `lastOverlay`. */
  datatype Rendezvous = Rendezvous(pending: map<int, Bitmap>, last: Option<Bitmap>)

  const Empty: Rendezvous := Rendezvous(map[], None)

  /** A `deliverOverlay` call: its `tMs` and the result of decoding its PNG
      bytes (None when the decoder returns null). */
  datatype Delivery = Delivery(tMs: int, decoded: Option<Bitmap>)

  /** A delivery whose image decodes is stored under its timestamp,
      replacing any earlier one, and becomes the last overlay; a failed
      decode changes nothing. */
  function Deliver(rv: Rendezvous, d: Delivery): (r: Rendezvous)
    ensures d.decoded.None? ==> r == rv
    ensures d.decoded.Some? ==>
              && r.pending.Keys == rv.pending.Keys + {d.tMs}
              && r.pending[d.tMs] == d.decoded.value
              && r.last == d.decoded
    ensures forall t :: t in rv.pending && t != d.tMs ==> t in r.pending && r.pending[t] == rv.pending[t]
  {
    match d.decoded
    case None => rv
    case Some(bmp) => Rendezvous(rv.pending[d.tMs := bmp], Some(bmp))
  }

  /** The timestamps of the deliveries whose image decoded. */
  function DecodedStamps(ds: seq<Delivery>): set<int>
    decreases |ds|
  {
    if ds == [] then {} else (if ds[0].decoded.Some? then {ds[0].tMs} else {}) + DecodedStamps(ds[1..])
  }

  /** Deliveries applied in the order they arrive: exactly the timestamps
      whose image decoded become pending, and an entry is changed only by a
      later delivery for its own timestamp. */
  function DeliverAll(rv: Rendezvous, ds: seq<Delivery>): (r: Rendezvous)
    ensures r.pending.Keys == rv.pending.Keys + DecodedStamps(ds)
    ensures forall t :: t in rv.pending && t !in DecodedStamps(ds) ==> r.pending[t] == rv.pending[t]
    decreases |ds|
  {
    if ds == [] then rv else DeliverAll(Deliver(rv, ds[0]), ds[1..])
  }

  /** The last overlay of `ds` that decoded, or `fallback` if none did. */
  function LastDecoded(ds: seq<Delivery>, fallback: Option<Bitmap>): Option<Bitmap>
    decreases |ds|
  {
    if ds == [] then fallback
    else if ds[|ds| - 1].decoded.Some? then ds[|ds| - 1].decoded
    else LastDecoded(ds[..|ds| - 1], fallback)
  }

  lemma {:induction false} DeliverAllSnoc(rv: Rendezvous, ds: seq<Delivery>, d: Delivery)
    ensures DeliverAll(rv, ds + [d]) == Deliver(DeliverAll(rv, ds), d)
    decreases |ds|
  {
    if ds == [] {
      assert ds + [d] == [d];
      assert [d][1..] == [];
    } else {
      assert (ds + [d])[0] == ds[0];
      assert (ds + [d])[1..] == ds[1..] + [d];
      DeliverAllSnoc(Deliver(rv, ds[0]), ds[1..], d);
    }
  }

  /** `lastOverlay` is the last overlay that was delivered and decoded,
      whichever timestamp it was delivered for. */
  lemma {:induction false} LastIsLastDelivered(rv: Rendezvous, ds: seq<Delivery>)
    ensures DeliverAll(rv, ds).last == LastDecoded(ds, rv.last)
    decreases |ds|
  {
    if ds != [] {
      var init := ds[..|ds| - 1];
      assert ds == init + [ds[|ds| - 1]];
      DeliverAllSnoc(rv, init, ds[|ds| - 1]);
      LastIsLastDelivered(rv, init);
    }
  }

  /** Outcome of the take: the map and last overlay afterwards, the overlay
      drawn on the frame (None draws nothing), and whether the exact
      timestamp was found. */
  datatype Taken = Taken(next: Rendezvous, overlay: Option<Bitmap>, hit: bool)

  /** The take at the end of the bounded wait, on the map as it stands by
      then: remove the entry for `tMs` if present, else use the last
      overlay. */
  function Take(rv: Rendezvous, tMs: int): (r: Taken)
    ensures r.hit <==> tMs in rv.pending
    ensures r.hit ==> r.overlay == Some(rv.pending[tMs])
    ensures !r.hit ==> r.overlay == rv.last
    ensures r.next.pending.Keys == rv.pending.Keys - {tMs}
    ensures forall t :: t in r.next.pending ==> r.next.pending[t] == rv.pending[t]
    ensures r.next.last == rv.last
  {
    if tMs in rv.pending then
      Taken(Rendezvous(rv.pending - {tMs}, rv.last), Some(rv.pending[tMs]), true)
    else
      Taken(rv, rv.last, false)
  }

  /** A delivered overlay is what the take for its timestamp returns, and the
      take leaves the map as it was apart from that key. */
  lemma DeliverThenTake(rv: Rendezvous, tMs: int, bmp: Bitmap)
    ensures var r := Take(Deliver(rv, Delivery(tMs, Some(bmp))), tMs);
            && r.hit && r.overlay == Some(bmp)
            && r.next == Rendezvous(rv.pending - {tMs}, Some(bmp))
  {
    var r := Take(Deliver(rv, Delivery(tMs, Some(bmp))), tMs);
    assert r.next.pending == rv.pending - {tMs};
  }

  /** An entry is taken at most once: a second take for the same timestamp,
      with no delivery in between, misses and falls back. */
  lemma TakenOnlyOnce(rv: Rendezvous, tMs: int)
    ensures var second := Take(Take(rv, tMs).next, tMs);
            !second.hit && second.overlay == rv.last
  {
  }

  /** A delivery for another timestamp does not change whether the take for
      `tMs` hits, nor what a hit returns. */
  lemma OtherTimestampIndependent(rv: Rendezvous, d: Delivery, tMs: int)
    requires d.tMs != tMs
    ensures Take(Deliver(rv, d), tMs).hit == Take(rv, tMs).hit
    ensures Take(rv, tMs).hit ==> Take(Deliver(rv, d), tMs).overlay == Take(rv, tMs).overlay
  {
  }

  /** On a miss the frame gets the last delivered overlay, which may have been
      delivered for another timestamp: after a delivery for `other` only, a
      take for `tMs` that finds nothing returns the overlay for `other`. */
  lemma MissFallsBackToOtherTimestamp(tMs: int, other: int, bmp: Bitmap)
    requires other != tMs
    ensures var r := Take(Deliver(Empty, Delivery(other, Some(bmp))), tMs);
            !r.hit && r.overlay == Some(bmp)
  {
  }
}

=== FILE: sequences.dfy ===
/** Facts about sequences that the drain and the frame loop share. */
module Sequences {

  /** Two appends in a row append their concatenation. */
  lemma AppendChain<T>(x0: seq<T>, x1: seq<T>, x2: seq<T>, now: seq<T>, later: seq<T>)
    requires x1 == x0 + now && x2 == x1 + later
    ensures x2 == x0 + (now + later)
  {
  }
}

=== FILE: session.dfy ===
/**
 The session lifecycle of the plugin: `startEncoding` opening the extractor,
 picking the tracks and creating decoder, encoder and muxer; and the two
 teardowns, `finishEncoding` (final drain, stop, release) and `releaseAll`
 (release only), each step of which is attempted whatever the previous
 step did.
 */
module Session {
  import opened Wrappers
  import opened Tracks
  import opened Drain
  import opened Overlay
  import DecodeLoop

  /** An opaque framework object: MediaExtractor, MediaCodec or MediaMuxer. */
  datatype Handle = Handle(id: nat)

  /** The plugin's media fields. */
  datatype Plugin = Plugin(
    extractor: Option<Handle>,
    decoder: Option<Handle>,
    encoder: Option<Handle>,
    muxer: Option<Handle>,
    drain: DrainState,
    rendezvous: Rendezvous)

  /** Every handle null, no pending overlay and no last overlay. */
  predicate Cleared(p: Plugin) {
    && p.extractor.None? && p.decoder.None? && p.encoder.None? && p.muxer.None?
    && p.rendezvous == Overlay.Empty
  }

  /** The `start` arguments the core reads; a missing `fps` means 30. */
  datatype StartArgs = StartArgs(width: int, height: int, fps: Option<real>)

  /** The objects the framework hands out during `startEncoding`. */
  datatype Created = Created(extractor: Handle, decoder: Handle, encoder: Handle, muxer: Handle)

  datatype StartOutcome =
    | Running(plugin: Plugin, selection: Selection, encoderFrameRate: int)
    | NoVideoTrack(plugin: Plugin)

  /** `startEncoding`, with every framework object created and configured
      as `created` says. Without a video track `selectTrack(-1)` throws: the
      extractor already assigned stays open and nothing else is created.
      Otherwise decoder, encoder and muxer exist, the muxer state is fresh
      and the encoder's frame rate is `EncoderFrameRate` of the session rate.
      Pending overlays are not touched. */
  function StartEncoding(p: Plugin, args: StartArgs, tracks: seq<TrackFormat>, created: Created): (r: StartOutcome)
    ensures r.NoVideoTrack? <==> forall j :: 0 <= j < |tracks| ==> !IsKind(tracks[j], Video)
    ensures r.NoVideoTrack? ==> r.plugin == p.(extractor := Some(created.extractor))
    ensures r.Running? ==>
              && r.plugin == Plugin(Some(created.extractor), Some(created.decoder), Some(created.encoder),
                                    Some(created.muxer), Drain.Initial, p.rendezvous)
              && IsFirstOfKind(tracks, Video, r.selection.video)
              && IsFirstOfKind(tracks, Audio, r.selection.audio)
              && r.selection.video != r.selection.audio
              && FpsFromFirstVideo(tracks, args.fps.GetOr(30.0), r.selection)
              && 1 <= r.encoderFrameRate
              && r.encoderFrameRate == EncoderFrameRate(r.selection.fps)
  {
    var sel := SelectTracks(args.fps.GetOr(30.0), tracks);
    SelectTracksPicksFirst(args.fps.GetOr(30.0), tracks);
    var withExtractor := p.(extractor := Some(created.extractor));
    if sel.video == NoTrack then NoVideoTrack(withExtractor)
    else
      Running(Plugin(Some(created.extractor), Some(created.decoder), Some(created.encoder),
                     Some(created.muxer), Drain.Initial, p.rendezvous),
              sel, EncoderFrameRate(sel.fps))
  }

  /** The framework calls the teardowns make, numbered in teardown order. */
  datatype Call =
    | EncoderSignalEos | EncoderStop | EncoderRelease
    | DecoderStop | DecoderRelease
    | MuxerStop | MuxerRelease
    | ExtractorRelease

  function Rank(c: Call): nat {
    match c
    case EncoderSignalEos => 0
    case EncoderStop => 1
    case EncoderRelease => 2
    case DecoderStop => 3
    case DecoderRelease => 4
    case MuxerStop => 5
    case MuxerRelease => 6
    case ExtractorRelease => 7
  }

  /** The object a call is made on. */
  function Target(p: Plugin, c: Call): Option<Handle> {
    match c
    case EncoderSignalEos => p.encoder
    case EncoderStop => p.encoder
    case EncoderRelease => p.encoder
    case DecoderStop => p.decoder
    case DecoderRelease => p.decoder
    case MuxerStop => p.muxer
    case MuxerRelease => p.muxer
    case ExtractorRelease => p.extractor
  }

  predicate IsRelease(c: Call) {
    c.EncoderRelease? || c.DecoderRelease? || c.MuxerRelease? || c.ExtractorRelease?
  }

  /** Calls made strictly in teardown order, so none twice. */
  predicate InTeardownOrder(calls: seq<Call>) {
    forall i, j :: 0 <= i < j < |calls| ==> Rank(calls[i]) < Rank(calls[j])
  }

  /** The call of rank `i`: teardown order, read off the ranks. */
  function CallAt(i: nat): (c: Call)
    requires i < 8
    ensures Rank(c) == i
  {
    [EncoderSignalEos, EncoderStop, EncoderRelease, DecoderStop, DecoderRelease,
     MuxerStop, MuxerRelease, ExtractorRelease][i]
  }

  /** Whether a teardown calls `c`: only on an object that exists; a
      release-only teardown makes no other call, the full one stops the
      muxer only when it was started. */
  predicate Attempts(p: Plugin, releaseOnly: bool, started: bool, c: Call) {
    && Target(p, c).Some?
    && (releaseOnly ==> IsRelease(c))
    && (c == MuxerStop ==> started)
  }

  /** The calls of rank `from` onwards that the teardown attempts, in
      teardown order. */
  function AttemptedFrom(from: nat, p: Plugin, releaseOnly: bool, started: bool): (r: seq<Call>)
    ensures forall c :: c in r <==> Rank(c) >= from && Attempts(p, releaseOnly, started, c)
    ensures InTeardownOrder(r)
    decreases 8 - from, p  // `p` in the measure keeps a literal `from` from unrolling all eight ranks
  {
    if from >= 8 then []
    else
      var c := CallAt(from);
      var rest := AttemptedFrom(from + 1, p, releaseOnly, started);
      assert forall x :: x == c <==> Rank(x) == from;
      (if Attempts(p, releaseOnly, started, c) then [c] else []) + rest
  }

  datatype TornDown = TornDown(plugin: Plugin, calls: seq<Call>)

  /** The end of either teardown: the calls it attempts, in teardown order,
      then every handle null and the overlay cache dropped, with the muxer
      state `drain` left behind. */
  function Teardown(p: Plugin, drain: DrainState, releaseOnly: bool): (r: TornDown)
    ensures Cleared(r.plugin) && r.plugin.drain == drain
    ensures InTeardownOrder(r.calls)
    ensures forall c :: c in r.calls <==> Attempts(p, releaseOnly, drain.muxerStarted, c)
    ensures EncoderRelease in r.calls <==> p.encoder.Some?
    ensures DecoderRelease in r.calls <==> p.decoder.Some?
    ensures MuxerRelease in r.calls <==> p.muxer.Some?
    ensures ExtractorRelease in r.calls <==> p.extractor.Some?
    ensures MuxerStop in r.calls <==> p.muxer.Some? && !releaseOnly && drain.muxerStarted
  {
    TornDown(Plugin(None, None, None, None, drain, Overlay.Empty),
             AttemptedFrom(0, p, releaseOnly, drain.muxerStarted))
  }

  /** A teardown of a plugin with every handle null makes no call. */
  lemma NothingToTearDown(p: Plugin, drain: DrainState, releaseOnly: bool)
    requires Cleared(p)
    ensures Teardown(p, drain, releaseOnly).calls == []
  {
    NoneAttempted(0, p, releaseOnly, drain.muxerStarted);
  }

  lemma {:induction false} NoneAttempted(from: nat, p: Plugin, releaseOnly: bool, started: bool)
    requires Cleared(p)
    ensures AttemptedFrom(from, p, releaseOnly, started) == []
    decreases 8 - from
  {
    if from < 8 {
      NoneAttempted(from + 1, p, releaseOnly, started);
    }
  }

  /** The drain `finishEncoding` begins with; `drainEncoder` returns at once
      when the encoder or the muxer is null. */
  function FinalDrain(p: Plugin, events: seq<EncoderEvent>, track: nat): (r: DrainState)
    ensures !(p.encoder.Some? && p.muxer.Some?) ==> r == p.drain
    ensures p.drain.muxerStarted ==> r.muxerStarted && r.outVideoTrack == p.drain.outVideoTrack
  {
    if p.encoder.Some? && p.muxer.Some? then DrainPass(p.drain, events, track).state else p.drain
  }

  /** `finishEncoding`: drain the encoder if both it and the muxer exist,
      signal end of input, stop and release the encoder, stop and release the
      decoder, stop the muxer only if it was started, release it, release the
      extractor, then null every handle and drop the overlay cache. Each call
      is made on an object that exists, in that order, and each object is
      released exactly once. */
  function FinishEncoding(p: Plugin, events: seq<EncoderEvent>, track: nat): (r: TornDown)
    ensures Cleared(r.plugin)
    ensures InTeardownOrder(r.calls)
    ensures forall c :: c in r.calls ==> Target(p, c).Some?
    ensures forall c :: c in r.calls <==> Attempts(p, false, r.plugin.drain.muxerStarted, c)
    ensures EncoderRelease in r.calls <==> p.encoder.Some?
    ensures DecoderRelease in r.calls <==> p.decoder.Some?
    ensures MuxerRelease in r.calls <==> p.muxer.Some?
    ensures ExtractorRelease in r.calls <==> p.extractor.Some?
    ensures MuxerStop in r.calls <==> p.muxer.Some? && r.plugin.drain.muxerStarted
    ensures !(p.encoder.Some? && p.muxer.Some?) ==> r.plugin.drain == p.drain
  {
    Teardown(p, FinalDrain(p, events, track), false)
  }

  /** `releaseAll` (the `cancel` command): release every object that exists,
      in the same order, with no drain and no stop call; then null every
      handle and drop the overlay cache. The muxer state is left as it was. */
  function ReleaseAll(p: Plugin): (r: TornDown)
    ensures Cleared(r.plugin)
    ensures r.plugin.drain == p.drain
    ensures InTeardownOrder(r.calls)
    ensures forall c :: c in r.calls ==> Target(p, c).Some? && IsRelease(c)
    ensures EncoderRelease in r.calls <==> p.encoder.Some?
    ensures DecoderRelease in r.calls <==> p.decoder.Some?
    ensures MuxerRelease in r.calls <==> p.muxer.Some?
    ensures ExtractorRelease in r.calls <==> p.extractor.Some?
  {
    Teardown(p, p.drain, true)
  }

  /** The final drain of `finishEncoding` starts the muxer (and so lets it be
      stopped) only on a format change it consumes, when it was not started
      already. */
  lemma FinishStopsOnlyStartedMuxer(p: Plugin, events: seq<EncoderEvent>, track: nat)
    requires MuxerProtocol(p.drain)
    requires p.encoder.Some? && p.muxer.Some?
    ensures var r := FinishEncoding(p, events, track);
            var k := DrainPass(p.drain, events, track).consumed;
            && MuxerProtocol(r.plugin.drain)
            && (MuxerStop in r.calls <==> p.drain.muxerStarted || HasFormatChange(events[..k]))
  {
    DrainStartsMuxerOnce(p.drain, events, track);
  }

  /** `cancel` after `finish` makes no call and changes nothing. */
  lemma CancelAfterFinishIsNoOp(p: Plugin, events: seq<EncoderEvent>, track: nat)
    ensures var f := FinishEncoding(p, events, track);
            ReleaseAll(f.plugin) == TornDown(f.plugin, [])
  {
    var f := FinishEncoding(p, events, track);
    NothingToTearDown(f.plugin, f.plugin.drain, true);
  }

  /** A second `finishEncoding` (the loop's own, then the `finish` command's)
      makes no call and changes nothing, whatever the encoder would report. */
  lemma FinishTwiceIsNoOp(p: Plugin, events: seq<EncoderEvent>, later: seq<EncoderEvent>, track: nat)
    ensures var f := FinishEncoding(p, events, track);
            FinishEncoding(f.plugin, later, track) == TornDown(f.plugin, [])
  {
    var f := FinishEncoding(p, events, track);
    assert FinalDrain(f.plugin, later, track) == f.plugin.drain;
    NothingToTearDown(f.plugin, f.plugin.drain, false);
  }

  /** With the loop's drains done, `finishEncoding` drains once more and only
      then signals end of input and stops the encoder: if the encoder's first
      answer is TRY_AGAIN_LATER, no sample it produces afterwards is written,
      whatever those are. */
  lemma FinishDrainsBeforeEndOfInput(p: Plugin, later: seq<EncoderEvent>, track: nat)
    requires p.encoder.Some? && p.muxer.Some? && p.drain.muxerStarted
    ensures var r := FinishEncoding(p, [TryAgainLater] + later, track);
            r.plugin.drain.muxerLog == p.drain.muxerLog
  {
  }

  /** The finish that writes every sample: signal end of input first, then
      drain until the encoder's END_OF_STREAM buffer, then stop and release
      as `finishEncoding` does. */
  function FinishToEndOfStream(p: Plugin, events: seq<EncoderEvent>, track: nat): (r: TornDown)
    ensures Cleared(r.plugin)
    ensures InTeardownOrder(r.calls)
    ensures forall c :: c in r.calls <==> Attempts(p, false, r.plugin.drain.muxerStarted, c)
    ensures EncoderSignalEos in r.calls <==> p.encoder.Some?
    ensures !(p.encoder.Some? && p.muxer.Some?) ==> r.plugin.drain == p.drain
  {
    var drain := if p.encoder.Some? && p.muxer.Some? then DrainToEos(p.drain, events, track).state else p.drain;
    Teardown(p, drain, false)
  }

  /** On a started muxer, the finish that drains to end of stream writes
      every non-empty sample the encoder hands out up to and including its
      END_OF_STREAM buffer, across any TRY_AGAIN_LATER answers, and keeps
      the muxer protocol. */
  lemma FinishToEndOfStreamWritesEverySample(p: Plugin, events: seq<EncoderEvent>, track: nat)
    requires p.encoder.Some? && p.muxer.Some?
    requires MuxerProtocol(p.drain) && p.drain.muxerStarted
    ensures var r := FinishToEndOfStream(p, events, track);
            var k := DrainToEos(p.drain, events, track).consumed;
            && (forall j :: 0 <= j < k - 1 ==> !EndsOutput(events[j]))
            && (k < |events| ==> EndsOutput(events[k - 1]))
            && WrittenSizes(r.plugin.drain.muxerLog) == WrittenSizes(p.drain.muxerLog) + NonEmptySizes(events[..k])
            && MuxerProtocol(r.plugin.drain)
  {
    DrainToEosStopsAtEos(p.drain, events, track);
    DrainToEosWritesNonEmptyAfterStart(p.drain, events, track);
  }

  /** The two finishes on the same encoder answers: TRY_AGAIN_LATER, then a
      500-byte sample flagged END_OF_STREAM. `finishEncoding` writes nothing;
      the finish that drains to end of stream writes the sample. */
  lemma TrailingSampleLostByFinish(p: Plugin, track: nat)
    requires p.encoder.Some? && p.muxer.Some?
    requires MuxerProtocol(p.drain) && p.drain.muxerStarted
    ensures var events := [TryAgainLater, Buffer(0, 500, true)];
            && WrittenSizes(FinishEncoding(p, events, track).plugin.drain.muxerLog) == WrittenSizes(p.drain.muxerLog)
            && WrittenSizes(FinishToEndOfStream(p, events, track).plugin.drain.muxerLog)
                 == WrittenSizes(p.drain.muxerLog) + [500]
  {
    var events := [TryAgainLater, Buffer(0, 500, true)];
    FinishDrainsBeforeEndOfInput(p, [Buffer(0, 500, true)], track);
    assert [TryAgainLater] + [Buffer(0, 500, true)] == events;
    FinishToEndOfStreamWritesEverySample(p, events, track);
    assert events[..2] == events;
    assert NonEmptySizes(events) == [500] by {
      assert events[1..] == [Buffer(0, 500, true)];
      assert events[1..][1..] == [];
    }
  }

  /** The frame loop of `processLoop` on a running session: a fresh input
      and output state over the plugin's muxer state and overlay cache. Every
      decoded image of the iterations run becomes one frame, keyed by its
      millisecond timestamp; the loop stops right after the first output
      carrying END_OF_STREAM and has seen it exactly then; the muxer
      protocol is kept. */
  function FrameLoop(p: Plugin, samples: seq<DecodeLoop.Sample>, ticks: seq<DecodeLoop.Tick>,
                     track: nat): (r: DecodeLoop.Looped)
    requires MuxerProtocol(p.drain)
    ensures r.iterations <= |ticks|
    ensures DecodeLoop.FrameStamps(r.state.output.frames) == DecodeLoop.ImageStamps(ticks[..r.iterations])
    ensures forall j :: 0 <= j < r.iterations - 1 ==> !DecodeLoop.EndsStream(ticks[j])
    ensures r.iterations < |ticks| ==> r.iterations > 0 && DecodeLoop.EndsStream(ticks[r.iterations - 1])
    ensures r.state.output.sawOutputEOS <==> r.iterations > 0 && DecodeLoop.EndsStream(ticks[r.iterations - 1])
    ensures MuxerProtocol(r.state.drain)
  {
    DecodeLoop.LoopFromStart(p.rendezvous, p.drain, samples, ticks, track);
    DecodeLoop.Loop(DecodeLoop.Start(p.rendezvous, p.drain), samples, ticks, track)
  }

  /** What `processLoop` did with the iterations given: the frames drawn,
      the iterations run, and the teardown, absent when the decoder never
      reported END_OF_STREAM and the loop is still polling. */
  datatype Processed = Processed(frames: seq<DecodeLoop.Frame>, iterations: nat, teardown: Option<TornDown>)

  /** `processLoop` on a running session: the frame loop, then, once the
      decoder has reported END_OF_STREAM, `finishEncoding`. The frames are
      exactly the decoded images of the iterations run, up to the first
      END_OF_STREAM output. The session is torn down, with the muxer
      protocol kept, exactly when such an output ended the loop; without
      one, every iteration given runs and the loop is still going. */
  function ProcessLoop(p: Plugin, samples: seq<DecodeLoop.Sample>, ticks: seq<DecodeLoop.Tick>,
                       final: seq<EncoderEvent>, track: nat): (r: Processed)
    requires MuxerProtocol(p.drain)
    ensures r.iterations <= |ticks|
    ensures DecodeLoop.FrameStamps(r.frames) == DecodeLoop.ImageStamps(ticks[..r.iterations])
    ensures forall j :: 0 <= j < r.iterations - 1 ==> !DecodeLoop.EndsStream(ticks[j])
    ensures r.iterations < |ticks| ==> r.iterations > 0 && DecodeLoop.EndsStream(ticks[r.iterations - 1])
    ensures r.teardown.Some? <==> r.iterations > 0 && DecodeLoop.EndsStream(ticks[r.iterations - 1])
    ensures r.teardown.None? ==> r.iterations == |ticks| && forall j :: 0 <= j < |ticks| ==> !DecodeLoop.EndsStream(ticks[j])
    ensures r.teardown.Some? ==> Cleared(r.teardown.value.plugin) && MuxerProtocol(r.teardown.value.plugin.drain)
  {
    var looped := FrameLoop(p, samples, ticks, track);
    if looped.state.output.sawOutputEOS then
      var after := p.(drain := looped.state.drain, rendezvous := looped.state.output.rendezvous);
      DrainStartsMuxerOnce(after.drain, final, track);
      Processed(looped.state.output.frames, looped.iterations, Some(FinishEncoding(after, final, track)))
    else
      Processed(looped.state.output.frames, looped.iterations, None)
  }
}

=== FILE: tracks.dfy ===
/**
 Track selection done by `startEncoding`: one pass over the extractor's track
 formats that keeps the first video track (and its frame rate) and the first
 audio track, followed by the frame rate the encoder is configured with.
 */
module Tracks {
  import opened Wrappers

  /** The two media kinds the picker distinguishes. */
  datatype Kind = Video | Audio

  /** What the picker reads from a track's MediaFormat: its MIME string, which
      may be missing, and its KEY_FRAME_RATE integer, when the key is present. */
  datatype TrackFormat = TrackFormat(mime: Option<string>, frameRate: Option<int>)

  /** The picker's variables: the chosen track indices (NoTrack when none)
      and the session frame rate. */
  datatype Selection = Selection(video: int, audio: int, fps: real)

  const NoTrack: int := -1

  predicate StartsWith(s: string, prefix: string) {
    |prefix| <= |s| && s[..|prefix|] == prefix
  }

  function MimePrefix(k: Kind): string {
    match k
    case Video => "video/"
    case Audio => "audio/"
  }

  /** A missing MIME string is read as the empty string. */
  predicate IsKind(f: TrackFormat, k: Kind) {
    StartsWith(f.mime.GetOr(""), MimePrefix(k))
  }

  /** No MIME string starts with both prefixes. */
  lemma KindsExclusive(f: TrackFormat)
    ensures !(IsKind(f, Video) && IsKind(f, Audio))
  {
  }

  /** `k.toDouble().coerceAtLeast(1.0)`. */
  function AtLeastOne(k: int): (r: real)
    ensures r >= 1.0
    ensures k >= 1 ==> r == k as real
    ensures k < 1 ==> r == 1.0
  {
    if (k as real) < 1.0 then 1.0 else k as real
  }

  /** One iteration of the picking loop, for track `i` with format `f`. The
      audio test is the `else` branch, so it is only reached when the
      video test fails. */
  function PickStep(sel: Selection, i: nat, f: TrackFormat): (r: Selection)
    ensures sel.video == NoTrack && IsKind(f, Video) ==> r.video == i
    ensures sel.audio == NoTrack && IsKind(f, Audio) ==> r.audio == i
    ensures r.video != sel.video ==> sel.video == NoTrack && IsKind(f, Video) && r.video == i && r.audio == sel.audio
    ensures r.audio != sel.audio ==> sel.audio == NoTrack && IsKind(f, Audio) && r.audio == i && r.video == sel.video
    ensures r.fps != sel.fps ==> r.video != sel.video && f.frameRate.Some?
  {
    KindsExclusive(f);
    if IsKind(f, Video) && sel.video == NoTrack then
      var fps := if f.frameRate.Some? then AtLeastOne(f.frameRate.value) else sel.fps;
      Selection(i, sel.audio, fps)
    else if IsKind(f, Audio) && sel.audio == NoTrack then
      sel.(audio := i)
    else
      sel
  }

  /** The picking loop over every track, starting from whatever the index
      variables held before it. */
  function PickFrom(prior: Selection, tracks: seq<TrackFormat>): (r: Selection)
    ensures prior.video != NoTrack ==> r.video == prior.video
    ensures prior.audio != NoTrack ==> r.audio == prior.audio
    ensures r.video == prior.video || (0 <= r.video < |tracks| && IsKind(tracks[r.video], Video))
    ensures r.audio == prior.audio || (0 <= r.audio < |tracks| && IsKind(tracks[r.audio], Audio))
    decreases |tracks|
  {
    if tracks == [] then prior
    else PickStep(PickFrom(prior, tracks[..|tracks| - 1]), |tracks| - 1, tracks[|tracks| - 1])
  }

  /** The picking loop with both indices reset to NoTrack first; `fps` is the
      frame rate requested by the caller. */
  function SelectTracks(fps: real, tracks: seq<TrackFormat>): (r: Selection)
    ensures r.video == NoTrack || (0 <= r.video < |tracks| && IsKind(tracks[r.video], Video))
    ensures r.audio == NoTrack || (0 <= r.audio < |tracks| && IsKind(tracks[r.audio], Audio))
  {
    PickFrom(Selection(NoTrack, NoTrack, fps), tracks)
  }

  /** `idx` is the smallest index of a track of kind `k`, or NoTrack when
      there is none. */
  ghost predicate IsFirstOfKind(tracks: seq<TrackFormat>, k: Kind, idx: int) {
    if idx == NoTrack then
      forall j :: 0 <= j < |tracks| ==> !IsKind(tracks[j], k)
    else
      && 0 <= idx < |tracks|
      && IsKind(tracks[idx], k)
      && forall j :: 0 <= j < idx ==> !IsKind(tracks[j], k)
  }

  /** The frame rate the picker leaves: the first video track's frame rate
      (raised to at least 1) when that track carries one, else the caller's. */
  ghost predicate FpsFromFirstVideo(tracks: seq<TrackFormat>, fps: real, sel: Selection) {
    if 0 <= sel.video < |tracks| && tracks[sel.video].frameRate.Some? then
      sel.fps == AtLeastOne(tracks[sel.video].frameRate.value)
    else
      sel.fps == fps
  }

  /** With the indices reset, the picker finds the first video and the first
      audio track, never gives both the same index, and takes the frame rate
      of the first video track when it has one. */
  lemma {:induction false} SelectTracksPicksFirst(fps: real, tracks: seq<TrackFormat>)
    ensures IsFirstOfKind(tracks, Video, SelectTracks(fps, tracks).video)
    ensures IsFirstOfKind(tracks, Audio, SelectTracks(fps, tracks).audio)
    ensures SelectTracks(fps, tracks).video != NoTrack ==>
              SelectTracks(fps, tracks).video != SelectTracks(fps, tracks).audio
    ensures FpsFromFirstVideo(tracks, fps, SelectTracks(fps, tracks))
    decreases |tracks|
  {
    if tracks != [] {
      var n := |tracks| - 1;
      var init := tracks[..n];
      SelectTracksPicksFirst(fps, init);
      assert forall j :: 0 <= j < n ==> init[j] == tracks[j];
      KindsExclusive(tracks[n]);
      var sel := SelectTracks(fps, init);
      if sel.video != NoTrack {
        KindsExclusive(tracks[sel.video]);
      }
      if sel.audio != NoTrack {
        KindsExclusive(tracks[sel.audio]);
      }
    }
  }

  /** The frame rate chosen is at least 1 whenever it comes from a track. */
  lemma TrackFrameRateAtLeastOne(fps: real, tracks: seq<TrackFormat>)
    ensures var sel := SelectTracks(fps, tracks);
            0 <= sel.video < |tracks| && tracks[sel.video].frameRate.Some? ==> sel.fps >= 1.0
  {
    SelectTracksPicksFirst(fps, tracks);
  }

  const IntMax: int := 0x7fff_ffff
  const IntMin: int := -0x8000_0000

  /** Kotlin's `Double.toInt()`: rounds toward zero and saturates at the
      32-bit bounds. */
  function ToInt32(x: real): (n: int)
    ensures IntMin <= n <= IntMax
    ensures 0.0 <= x < IntMax as real ==> n as real <= x < n as real + 1.0
    ensures IntMin as real < x <= 0.0 ==> n as real - 1.0 < x <= n as real
    ensures x >= IntMax as real ==> n == IntMax
    ensures x <= IntMin as real ==> n == IntMin
  {
    if x >= IntMax as real then IntMax
    else if x <= IntMin as real then IntMin
    else if x >= 0.0 then x.Floor
    else -((-x).Floor)
  }

  /** The encoder's KEY_FRAME_RATE, `fps.toInt().coerceAtLeast(1)`. */
  function EncoderFrameRate(fps: real): (r: int)
    ensures 1 <= r <= IntMax
    ensures 1.0 <= fps < IntMax as real ==> r as real <= fps < r as real + 1.0
    ensures fps < 1.0 ==> r == 1
    ensures fps >= IntMax as real ==> r == IntMax
  {
    var n := ToInt32(fps);
    if n < 1 then 1 else n
  }

  /** A track rate taken from the file reaches the encoder unchanged. */
  lemma EncoderKeepsTrackFrameRate(k: int)
    requires 1 <= k <= IntMax
    ensures EncoderFrameRate(AtLeastOne(k)) == k
  {
    assert (k as real).Floor == k;
  }

  /** The loop as written starts from the index variables' previous values,
      which nothing resets between sessions: after a session on a file with a
      single video track, a second session on a file whose track 0 is audio
      and track 1 is video ends with both indices 0, the video index naming
      the audio track. */
  lemma StaleIndicesCollide()
    ensures var video := TrackFormat(Some("video/avc"), Some(30));
            var audio := TrackFormat(Some("audio/mp4a-latm"), None);
            var first := SelectTracks(30.0, [video]);
            var second := PickFrom(first, [audio, video]);
            && first.video == 0
            && second.video == 0 && second.audio == 0
            && !IsKind([audio, video][second.video], Video)
  {
    var video := TrackFormat(Some("video/avc"), Some(30));
    var audio := TrackFormat(Some("audio/mp4a-latm"), None);
    assert "video/avc"[..6] == "video/";
    assert "audio/mp4a-latm"[..6] == "audio/";
    assert IsKind(video, Video);
    assert IsKind(audio, Audio);
    KindsExclusive(audio);
    KindsExclusive(video);
    assert [video][..0] == [];
    var first := PickStep(Selection(NoTrack, NoTrack, 30.0), 0, video);
    assert first == Selection(0, NoTrack, 30.0);
    assert PickFrom(Selection(NoTrack, NoTrack, 30.0), [video][..0]) == Selection(NoTrack, NoTrack, 30.0);
    assert SelectTracks(30.0, [video]) == first;
    assert [audio, video][..1] == [audio];
    assert [audio][..0] == [];
    var mid := PickStep(first, 0, audio);
    assert mid == Selection(0, 0, 30.0);
    assert PickFrom(first, [audio]) == mid;
    assert PickFrom(first, [audio, video]) == PickStep(mid, 1, video) == mid;
  }
}

=== FILE: wrappers.dfy ===
/** Nullable values of the plugin (Kotlin `T?`) as an explicit Some/None datatype. */
module Wrappers {

  datatype Option<+T> = None | Some(value: T) {

    /** The value, or `default` when absent (Kotlin's `?:`). */
    function GetOr(default: T): T {
      match this
      case Some(v) => v
      case None => default
    }
  }
}
